=== FILE: README.md ===
# Schema bootstrap of the Q&A back end

This project models how the back end sets up its PostgreSQL schema. There are
two code paths:

- The migration runs itself when `BackEnd/Table/schema.js` is loaded. It
  creates `users`, `questions`, `answers`, `answer_votes` and
  `answer_comments` with `CREATE TABLE IF NOT EXISTS`. Then it adds two
  optional columns to `users` through `addColumnIfNotExists`. The first error
  stops it; that error is logged and never rethrown.
- `start()` in `BackEnd/app.js` sends a probe query. If the probe succeeds, it
  issues the five exported `CREATE TABLE IF NOT EXISTS` statements in order.
  Whatever happens, it then listens, and it warns when the probe failed.

The model has these parts:

- **Catalog** (`catalog.dfy`): the database's view of its schema. A catalog
  maps each table name to its columns. Each column holds its definition as an
  opaque string, plus its inline `REFERENCES … ON DELETE` clause if it has
  one. Each table also holds its unique constraints. The file gives the
  PostgreSQL meaning of `CREATE TABLE IF NOT EXISTS`: an existing table is a
  no-op, and a reference to a missing table is an error. It also gives the
  meaning of `ALTER TABLE … ADD COLUMN IF NOT EXISTS`: a missing table is an
  error, and an existing column is a no-op.
- **Registry** (`registry.dfy`): the five table definitions, in declaration
  order. They exist in two copies that differ only in the type of the
  `createdate` and `created_at` columns: `TIMESTAMP` in the exported
  constants, `TIMESTAMPTZ` in the migration's inline copies. Both copies keep
  `answers.updated_at` as `TIMESTAMP`.
- **Executor** (`executor.dfy`): the connection pool seen as a query function.
  It appends every statement to a log. It can be unreachable, which refuses
  every query. It can also fail at chosen log positions, which stands for
  transport errors.
- **Migration** (`migration.dfy`): `addColumnIfNotExists`, plus the fail-fast
  fold over steps that both code paths use.
- **Schema** (`schema.dfy`): the self-invoking migration, from
  `BackEnd/Table/schema.js` lines 80–153.
- **Startup** (`startup.dfy`): `start()`. It also covers the two orders in
  which the two bootstrap paths can run.
- **Referential** (`referential.dfy`): a row store that holds only ids and
  foreign keys. It models the declared `ON DELETE CASCADE` and
  `ON DELETE SET NULL` actions, and the `unique_vote` constraint, in which
  NULLs are distinct.

## Model

A row that says a run completes, succeeds or recovers assumes a healthy executor, that is, a reachable database with no failing statements, unless the row says otherwise. The member's preconditions name it as `Healthy`.

| member | source | states |
|---|---|---|
| Catalog.ColumnsOf | BackEnd/Table/schema.js:3-11 | The columns a table gets are exactly the declared names, and each carries its declared definition when names are distinct. |
| Catalog.FirstUnresolved | BackEnd/Table/schema.js:15 | Reports nothing exactly when every inline reference of a definition resolves to an existing table and column. Otherwise it reports the reference of the leftmost column whose reference does not resolve. |
| Catalog.ExtendsTransitive | BackEnd/Table/schema.js:80-153 | "Only adds tables and columns, never drops or redefines" composes across steps. |
| Catalog.CreateTableIfNotExists | BackEnd/Table/schema.js:13-21 | An existing table is kept exactly as it is, even when the new definition differs. On a new name, creation succeeds iff the column names are distinct and every reference resolves. Success adds exactly that table, built from its definition, and leaves every other table alone. |
| Catalog.AlterTableAddColumn | BackEnd/Table/schema.js:75 | Fails with an undefined-table error iff the table is missing. An existing column is a no-op. Otherwise it adds exactly that column, with its definition, to exactly that table. |
| Catalog.LookupSeesAlter | BackEnd/Table/schema.js:70-75 | The metadata lookup and the ALTER agree. After a successful add, the lookup for that (table, column) finds its row, and every other lookup answers as it did before. |
| Executor.Query | BackEnd/app.js:44 | Every statement is logged. An unreachable database refuses every query, and a faulted query fails at its log position; both change nothing. A live probe returns one row. A live lookup returns the catalog's answer. DDL changes the catalog exactly as Catalog.CreateTableIfNotExists and Catalog.AlterTableAddColumn define, and nothing else changes it. |
| Executor.AltersAppend | BackEnd/Table/schema.js:75 | The count of ALTER statements in a log is additive over concatenation. |
| Registry.UsersSpec | BackEnd/Table/schema.js:3-11 | The users table: its column names are distinct and it has no table-level constraint. Registry.UsersActions states that it references nothing. |
| Registry.QuestionsSpec | BackEnd/Table/schema.js:13-21 | The questions table, with the `createdate` type as a parameter: distinct column names, no table-level constraint. Registry.QuestionsActions states its reference. |
| Registry.AnswersSpec | BackEnd/Table/schema.js:23-32 | The answers table, with the `createdate` type as a parameter: distinct column names, no table-level constraint. Registry.AnswersActions states its references. |
| Registry.AnswerVotesSpec | BackEnd/Table/schema.js:39-46 | The answer_votes table: distinct column names, and exactly one table-level constraint, UNIQUE (answerid, userid). Registry.AnswerVotesActions states its references. |
| Registry.AnswerCommentsSpec | BackEnd/Table/schema.js:48-54 | The answer_comments table: distinct column names, no table-level constraint. Registry.AnswerCommentsActions states its references. |
| Registry.Specs | BackEnd/Table/schema.js:83-143 | The five definitions in the order users, questions, answers, answer_votes, answer_comments. Table names are distinct and each table's column names are distinct. The timestamp type is the only parameter: TIMESTAMP for the exported copy, TIMESTAMPTZ for the migration's. |
| Registry.RegistryWellFormed | BackEnd/Table/schema.js:3-54 | Each of the five definitions has distinct column names, and no two definitions share a table name. |
| Registry.UsersDistinct | BackEnd/Table/schema.js:3-11 | The users definition has distinct column names. |
| Registry.QuestionsDistinct | BackEnd/Table/schema.js:13-21 | The questions definition has distinct column names, whatever the timestamp type. |
| Registry.AnswersDistinct | BackEnd/Table/schema.js:23-32 | The answers definition has distinct column names. |
| Registry.AnswerVotesDistinct | BackEnd/Table/schema.js:39-46 | The answer_votes definition has distinct column names. |
| Registry.AnswerCommentsDistinct | BackEnd/Table/schema.js:48-54 | The answer_comments definition has distinct column names. |
| Registry.DeclaresUsers | BackEnd/Table/schema.js:3-11 | users declares the `userid` column that the others reference, whatever their ON DELETE action. |
| Registry.DeclaresQuestions | BackEnd/Table/schema.js:13-21 | questions declares `questionid`, whatever the referencing ON DELETE action. |
| Registry.DeclaresAnswers | BackEnd/Table/schema.js:23-32 | answers declares `answerid`, whatever the referencing ON DELETE action. |
| Registry.QuestionsRefersBack | BackEnd/Table/schema.js:15 | Every reference in questions targets a column of a table declared before it. |
| Registry.AnswersRefersBack | BackEnd/Table/schema.js:25-26 | Every reference in answers targets a column of a table declared before it. |
| Registry.AnswerVotesRefersBack | BackEnd/Table/schema.js:41-42 | Every reference in answer_votes targets a column of a table declared before it. |
| Registry.AnswerCommentsRefersBack | BackEnd/Table/schema.js:50-51 | Every reference in answer_comments targets a column of a table declared before it. |
| Registry.FiveOrdered | BackEnd/Table/schema.js:57-66 | In the five-table order, each table refers only to tables earlier in the order. |
| Registry.RegistryDependencyOrdered | BackEnd/Table/schema.js:57-66 | Both registries, exported and inline, are in dependency order: every referenced table comes earlier. |
| Registry.ReferenceAt | BackEnd/Table/schema.js:15 | Looking up a column by name finds the reference declared at its position. |
| Registry.UsersActions | BackEnd/Table/schema.js:3-11 | users references no table. |
| Registry.QuestionsActions | BackEnd/Table/schema.js:15 | `questions.userid` references users with SET NULL. |
| Registry.AnswersActions | BackEnd/Table/schema.js:25-26 | `answers.userid` is SET NULL into users, and `answers.questionid` is CASCADE into questions. |
| Registry.AnswerVotesActions | BackEnd/Table/schema.js:41-42 | `answer_votes.answerid` is CASCADE into answers, and its `userid` is SET NULL into users. |
| Registry.AnswerCommentsActions | BackEnd/Table/schema.js:50-51 | `answer_comments.answerid` is CASCADE into answers, and its `userid` is SET NULL into users. |
| Registry.DeclaredActions | BackEnd/Table/schema.js:15-54 | The referential actions that the row store implements: four SET NULL user references, three CASCADE parent references, and the unique (answerid, userid) vote constraint. |
| Migration.FollowsTransitive | BackEnd/Table/schema.js:80-153 | Running further on the same executor composes. The log only grows, and reachability and faults are fixed. |
| Migration.HealthyFollows | BackEnd/Table/schema.js:80-153 | A fault-free executor stays fault-free after any run. |
| Migration.SettledMonotone | BackEnd/Table/schema.js:74-75 | A step whose effect is already present stays settled as the catalog grows. |
| Migration.AddColumnIfNotExists | BackEnd/Table/schema.js:69-77 | The lookup is always issued. The ALTER follows iff the lookup ran and found no row. An existing column leaves the catalog as it is. Only the named table can change, and only by the named column. A column it adds carries the caller's definition. An executor error on the lookup or the ALTER propagates as a failure: a completed call met no refused or failed statement. On a healthy executor it fails iff the table is missing, with an undefined-table error. |
| Migration.AddColumnIdempotent | BackEnd/Table/schema.js:74-75 | A second identical call after a successful one changes nothing and issues only the lookup. |
| Migration.ExecStep | BackEnd/Table/schema.js:83-147 | One awaited step. A failure changes nothing. An executor error is never swallowed: a step on an unreachable or faulted executor fails, and a completed step met no error. Success leaves the step's effect present. A step whose effect is present issues no ALTER and, on a healthy executor, succeeds. |
| Migration.RunSteps | BackEnd/Table/schema.js:81-152 | The sequence of awaited steps only extends the catalog and the log. An empty sequence is success with no effect. |
| Migration.RunDoneMetNoFault | BackEnd/Table/schema.js:81-152 | A completed run met no executor error: every statement it issued reached the database and was not failed, so the first error ends the run as a failure. |
| Migration.RunAppend | BackEnd/Table/schema.js:81-152 | Running `a + b` runs `a`, stops there on failure, and otherwise runs `b` from where `a` left off. |
| Migration.FailFast | BackEnd/Table/schema.js:81-152 | A failed run has a failing step k. Steps before k all succeeded, step k's failure is the run's result, no later step runs, and the catalog keeps the effects of steps before k with no rollback. |
| Migration.DoneSettlesAll | BackEnd/Table/schema.js:81-152 | After a successful run, every step's effect is present. |
| Migration.SettledRunIsInert | BackEnd/Table/schema.js:81-152 | Steps whose effects are all present change nothing and issue no ALTER, and on a healthy executor they succeed. |
| Migration.RerunAfterSuccess | BackEnd/Table/schema.js:81-152 | Re-running after a success, on any executor, leaves the catalog unchanged and issues no ALTER. |
| Migration.StepDeterministic | BackEnd/Table/schema.js:83-147 | On healthy executors a step's effect and verdict depend only on the catalog. |
| Migration.RerunFixedPoint | BackEnd/Table/schema.js:81-152 | On a healthy executor, re-running from the catalog a run produced, whatever its outcome, gives the same catalog and the same verdict. |
| Migration.TableOfCovers | BackEnd/Table/schema.js:13-21 | A created table has every declared column. |
| Migration.CreateStep | BackEnd/Table/schema.js:96-106 | On a healthy executor, creating a resolvable definition succeeds. It adds the table iff the name was absent. |
| Migration.CreateNext | BackEnd/Table/schema.js:83-143 | One more ordered create preserves the invariant of an ordered run: success, a healthy executor, and the catalog holding the earlier tables. |
| Migration.CreatesPrefix | BackEnd/Table/schema.js:83-143 | Every prefix of a dependency-ordered run of creates succeeds and builds exactly the prefix's missing tables. |
| Migration.OrderedCreatesComplete | BackEnd/Table/schema.js:83-143 | From any catalog that holds a prefix of the registry, creating a dependency-ordered registry on a healthy executor succeeds. It adds exactly the missing names, keeps every existing table as it was, and builds each missing table from its definition. |
| Migration.DonePrefixPartial | BackEnd/Table/schema.js:83-143 | A completed prefix of the creates, run from a partly created schema, leaves the schema partly created at least up to the end of that prefix. |
| Migration.CreatesLeavePartial | BackEnd/Table/schema.js:81-152 | Whatever a run of the creates does, complete or stop at a fault part way, it leaves a partly created schema: a prefix of the tables present with their declared columns, and none of the rest. On success, all of them are present. |
| Migration.CreatesIssueInOrder | BackEnd/app.js:48-54 | A run of creates issues a prefix of the registry's CREATE statements, in order. The prefix is the whole registry on success and non-empty on failure. |
| Migration.RootMustComeFirst | BackEnd/Table/schema.js:57-66 | On an empty database, a registry whose first table references another table fails at once with an unresolved reference. Nothing is created and only one statement is issued. |
| Schema.Migrate | BackEnd/Table/schema.js:80-153 | The migration never drops a table, and when it completes, all five tables and both optional user columns are present. A completed migration met no executor error, so any error thrown inside the `try` is reported as the run's failure. |
| Schema.FutureColumnsComplete | BackEnd/Table/schema.js:146-147 | With users present on a healthy executor, the two additive steps succeed. Afterwards users has `password_reset_token` and `token_expiry`. Either one that was missing now has its definition from the migration, `VARCHAR(255) NULL` or `TIMESTAMPTZ NULL`. No table is added, and other tables are untouched. |
| Schema.CreatesThenColumns | BackEnd/Table/schema.js:83-147 | An ordered run of creates followed by the two additive steps completes from any partly created catalog. |
| Schema.RegistryNames | BackEnd/Table/schema.js:83-143 | The migration creates exactly the five named tables. |
| Schema.RegistryRecovers | BackEnd/Table/schema.js:83-147 | From a catalog that holds any prefix of the registry, the full run completes. The missing tables get the run's definitions, and existing tables other than users are untouched. |
| Schema.MigrateRecovers | BackEnd/Table/schema.js:80-153 | The same partial-state recovery, for the self-invoking migration with its TIMESTAMPTZ definitions. |
| Schema.OnlyUsersIsPartial | BackEnd/Table/schema.js:83-93 | A catalog with only a users table holding its columns is a partly created registry. |
| Schema.RegistryRecoversFromOnlyUsers | BackEnd/Table/schema.js:83-147 | From a catalog with only users, a run ends with exactly the five tables and the two new user columns. |
| Schema.RecoverFromOnlyUsers | BackEnd/Table/schema.js:80-153 | From a catalog with only users, the migration completes with the five tables and both new user columns. |
| Schema.MigrateTwiceIsOnce | BackEnd/Table/schema.js:80-153 | On a healthy executor, migrating twice gives the same catalog and verdict as migrating once, from any state. |
| Schema.MigrateAgainIsInert | BackEnd/Table/schema.js:80-153 | After a successful migration, another migration on any executor changes nothing and issues no ALTER. |
| Schema.MigrateLeavesPartial | BackEnd/Table/schema.js:80-153 | A migration that stops part way, in the creates or in the column additions, leaves a partly created schema. |
| Schema.RetryMigrate | BackEnd/Table/schema.js:80-153 | A failed migration is repaired by running it again. Start from a partly created schema, an empty one included. Whatever the first run did there, on any executor, a second run on a healthy executor completes and installs the whole schema. |
| Schema.RegistryCreatesFresh | BackEnd/app.js:49-54 | From a database without the five tables, the ordered creates succeed and build each table exactly from its definition. |
| Schema.FreshIsPartial | BackEnd/Table/schema.js:83-143 | A database without the five tables is a partly created registry with nothing created yet. |
| Schema.ReversedRegistryFails | BackEnd/Table/schema.js:50 | On an empty database, creating the registry in reverse order fails on the first statement, because answer_comments references answers. This shows the declared order matters. |
| Schema.DefinitionAt | BackEnd/Table/schema.js:13-21 | A created table stores each declared column's definition under its name. |
| Schema.CreatedateColumn | BackEnd/Table/schema.js:19 | The created questions table has `createdate` with the definition's timestamp type and default. |
| Schema.QuestionsCreatedate | BackEnd/Table/schema.js:103 | A questions table built from either registry has `createdate` with that registry's timestamp type. |
| Startup.Start | BackEnd/app.js:39-69 | The server always listens. The warning appears iff the probe failed. `dbConnected` is true exactly when the probe succeeded, even if a create fails later. The probe is the first statement. A failed probe issues nothing else and changes nothing. |
| Startup.StartRunsCreates | BackEnd/app.js:44-54 | With a live database, the probe changes nothing and startup's result is the run of the five creates that follows it, with the flag set and no warning. |
| Startup.StartTrace | BackEnd/app.js:44-54 | The statements issued are the probe, then a prefix of the CREATEs in the order users, questions, answers, answer_votes, answer_comments. The prefix is empty when the probe fails and complete on success. |
| Startup.DegradedStartup | BackEnd/app.js:43-67 | With an executor that refuses every call, the server listens, reports not connected, warns, and issues no CREATE. |
| Startup.StartFailFast | BackEnd/app.js:48-60 | When a create fails after a good probe, the creates before it persist, it is the last statement issued, and nothing after it runs. |
| Startup.CreatesPrefixLog | BackEnd/app.js:49-54 | A successful prefix of creates logs exactly that prefix of CREATE statements. |
| Startup.FaultOnSecondCreate | BackEnd/app.js:49-60 | If the second CREATE fails, users exists, questions and later tables do not, the server is still connected without a warning, and only three statements were issued. |
| Startup.SecondCreateFaults | BackEnd/app.js:49-51 | A fault on the second create stops the run with the first table created. |
| Startup.StartFromEmpty | BackEnd/app.js:39-54 | On a healthy, empty database, start connects, creates the five exported tables exactly as defined, and does not warn. |
| Startup.CoversSameShape | BackEnd/Table/schema.js:19 | Whether a schema holds a table's declared columns does not depend on the column types. |
| Startup.QuestionsShape | BackEnd/Table/schema.js:19 | The two questions definitions, TIMESTAMP and TIMESTAMPTZ, have the same table name, column names, references and unique constraints. |
| Startup.AnswersShape | BackEnd/Table/schema.js:28 | The two answers definitions have the same table name, column names, references and unique constraints. |
| Startup.AnswerVotesShape | BackEnd/Table/schema.js:44 | The two answer_votes definitions have the same table name, column names, references and UNIQUE (answerid, userid) constraint. |
| Startup.AnswerCommentsShape | BackEnd/Table/schema.js:53 | The two answer_comments definitions have the same table name, column names, references and unique constraints. |
| Startup.RegistriesSameShape | BackEnd/Table/schema.js:83-143 | The exported and inline registries agree table by table on everything but column types and defaults. |
| Startup.PartialOtherRegistry | BackEnd/Table/schema.js:83-143 | A schema partly created by one registry is partly created, just as far, for the other. |
| Startup.RegistryCoversOther | BackEnd/Table/schema.js:83-143 | Tables built by one registry count as fully created for the other. |
| Startup.CreatedCovers | BackEnd/Table/schema.js:3-54 | Tables built from the exported definitions hold all their declared columns. |
| Startup.RegistrySettled | BackEnd/Table/schema.js:83-143 | Once the five tables exist, every CREATE in either registry is a no-op. |
| Startup.StartThenMigrate | BackEnd/Table/schema.js:19 | On a database holding none of the five tables, if start creates the tables first, the migration completes, and the content tables keep their exported TIMESTAMP definitions. |
| Startup.MigrateAfterExported | BackEnd/Table/schema.js:80-153 | Over a schema holding the five tables with at least the exported columns, the migration completes and leaves every table but users exactly as it was. |
| Startup.MigrateThenStart | BackEnd/Table/schema.js:103 | On a database holding none of the five tables, if the migration runs first, start then changes nothing, and the tables keep the migration's TIMESTAMPTZ definitions. |
| Startup.StartOnInstalled | BackEnd/app.js:44-54 | With the five tables present, start connects, succeeds, and changes nothing. |
| Startup.CreatedateOf | BackEnd/Table/schema.js:19 | A questions table built from a definition records that definition's `createdate` type. |
| Startup.FirstCreatorWins | BackEnd/Table/schema.js:13-21 | On a database holding none of the five tables, the two bootstrap orders give different `questions.createdate` types: TIMESTAMP when start wins, TIMESTAMPTZ when the migration wins. |
| Startup.StartLeavesPartial | BackEnd/app.js:48-60 | Whatever startup does, with a failed probe or a create failing part way, it leaves a partly created schema. |
| Startup.StartRecovers | BackEnd/app.js:44-54 | From a partly created schema, a startup on a healthy executor connects and completes its creates. |
| Startup.RetryAfterStart | BackEnd/app.js:39-69 | A failed startup is repaired by either bootstrap path. Start from a partly created schema, an empty one included. Whatever startup did there, on any executor, a later migration on a healthy executor installs the whole schema, and a later startup completes its creates. |
| Referential.DeleteQuestion | BackEnd/Table/schema.js:26 | Deleting a question removes it, adds no question, and removes exactly its answers and the votes and comments on those answers. Everything else survives unchanged. |
| Referential.DeleteAnswer | BackEnd/Table/schema.js:41 | Deleting an answer removes it, and removes exactly the votes and comments on it. Everything else survives unchanged. |
| Referential.DeleteUser | BackEnd/Table/schema.js:25 | Deleting a user removes no row of any other table. It nulls exactly the references to that user in the four tables and keeps every other column. |
| Referential.InsertVote | BackEnd/Table/schema.js:39-46 | A vote is accepted iff its id is new, it does not repeat a non-null (answerid, userid) pair, its answer exists, and its user is NULL or exists. An id clash and a pair clash are reported as such. |
| Referential.DeleteQuestionKeepsInvariants | BackEnd/Table/schema.js:26 | The cascade keeps every foreign key valid and votes unique, and leaves no answer pointing at the deleted question. |
| Referential.CascadeFollowsAnswers | BackEnd/Table/schema.js:41 | In a consistent store, a vote or comment disappears with a question iff it hangs on one of that question's answers. |
| Referential.SingleAnswerCascade | BackEnd/Table/schema.js:50 | Deleting a question with one answer is deleting that answer, plus the question. |
| Referential.NoAnswersNoCascade | BackEnd/Table/schema.js:26 | Deleting a question with no answers removes only the question. |
| Referential.CascadeAbsorbsAnswer | BackEnd/Table/schema.js:26 | Deleting one of a question's answers first does not change what deleting the question leaves. |
| Referential.AbsorbedVotes | BackEnd/Table/schema.js:41 | The votes left are the same whether or not the answer was deleted first. |
| Referential.AbsorbedComments | BackEnd/Table/schema.js:50 | The comments left are the same whether or not the answer was deleted first. |
| Referential.DeleteAnswerKeepsInvariants | BackEnd/Table/schema.js:41 | Deleting an answer keeps every foreign key valid and votes unique. |
| Referential.DeleteUserKeepsInvariants | BackEnd/Table/schema.js:42 | Deleting a user keeps every foreign key valid and votes unique, and leaves no reference to that user. |
| Referential.DeleteUserConsistent | BackEnd/Table/schema.js:51 | Nulling the user references keeps every foreign key valid. |
| Referential.DeleteUserUnique | BackEnd/Table/schema.js:45 | Nulling user references never makes two votes clash, because NULLs are distinct. |
| Referential.DeleteUserIdempotent | BackEnd/Table/schema.js:15 | Deleting the same user twice is deleting it once. |
| Referential.InsertVoteKeepsInvariants | BackEnd/Table/schema.js:45 | An accepted vote keeps every foreign key valid and votes unique. |
| Referential.SecondVoteRejected | BackEnd/Table/schema.js:45 | A second vote by the same user on the same answer is rejected as a duplicate. |
| Referential.NullVotesCoexist | BackEnd/Table/schema.js:45 | Two votes with a NULL user on the same answer are both accepted. |

## Left out

- The pool in `BackEnd/Db/dbConfig.js` is left out: its construction, TLS settings and connect logging are driver configuration. The executor is a parameter: reachability, plus a set of failing log positions.
- The Express setup in `BackEnd/app.js:3-36` is left out: middleware, CORS, body limits and route mounting are HTTP plumbing. `app.listen` is a flag on the result.
- SQL text is not parsed. Column types, `SERIAL`, `DEFAULT` clauses and `NOT NULL` are opaque definition strings. A `PRIMARY KEY` stays inside the opaque definition string, and a reference may target any existing column.
- The race between the self-invoking migration and `start()` is modelled as the two sequential orders only. Interleaved execution is concurrency and is left out.
- Console logging, and the caught error's message, are left out. The caught error is the `Failed` outcome that a run returns.
- The commented-out upgrade statements are left out, including the commented block at the end of `BackEnd/Table/schema.js`.
- The interpolated `ALTER` statement is left out as a SQL-injection surface. Only its effect on the catalog is modelled.
- `information_schema.columns` is looked up by table and column name without a schema filter. The model has one schema, so a same-named table in another schema is left out.
- A unique constraint is not checked for naming existing columns, and a referenced column is not checked for being unique. Every reference in the registry targets a primary key.
- The row store keeps only row ids and foreign keys. Column values, `SERIAL` id generation and updates are left out. A vote's or comment's `answerid` is a natural number, so the type already excludes NULL, and the rejection of a NULL `answerid` by `NOT NULL` is not modelled.
- Schema.MigrateTwiceIsOnce: assumes a fault-free executor. With faults the weaker Schema.MigrateAgainIsInert applies: after a successful run, a second run changes nothing.
- Migration.RunSteps: its contract states only growth of the log and catalog. Its step-by-step behaviour is stated by Migration.RunAppend and Migration.FailFast.
- Startup.Start: `start()` never calls the migration. It issues only the five exported CREATEs, and its warning depends only on the probe, so a failing CREATE after a good probe gives no warning (Startup.FaultOnSecondCreate).
- Startup.Start: every query is taken to settle. The pool sets no connection or statement timeout, so a query that never returns, such as one waiting on a lock or a half-open connection, would keep `start()` from ever reaching `app.listen`. The model does not cover that case, so `s.listening` holds by construction.
- Executor.Query: a failed query is taken to have had no effect. A DDL statement that the server committed but whose reply was lost shows up as an error while the table exists. In that case the model's "a failure changes nothing" (Migration.ExecStep) does not hold.

=== FILE: catalog.dfy ===
/**
 An abstract relational catalog: which tables exist, which columns each has,
 and which foreign keys and unique constraints they declare. Column types are
 opaque strings. On top of it, the two conditional DDL statements the schema
 bootstrap relies on, with PostgreSQL's `IF NOT EXISTS` semantics stated
 explicitly:

 - `CREATE TABLE IF NOT EXISTS` is a no-op on an existing table, whatever the
   new definition says; otherwise every inline `REFERENCES` must resolve.
 - `ALTER TABLE .. ADD COLUMN IF NOT EXISTS` needs the table, and is a no-op
   on an existing column.
 */
module Catalog {

  datatype Option<+T> = None | Some(value: T)

  /** The `ON DELETE` action of a foreign key. */
  datatype Action = Cascade | SetNull

  /** An inline `REFERENCES target(targetColumn) ON DELETE onDelete`. */
  datatype Reference = Reference(target: string, targetColumn: string, onDelete: Action)

  /** A column's type and modifiers (opaque), plus its foreign key, if any. */
  datatype ColumnDef = ColumnDef(definition: string, reference: Option<Reference>)

  datatype Column = Column(name: string, def: ColumnDef)

  /** The definition embedded in one `CREATE TABLE` statement. */
  datatype TableSpec = TableSpec(name: string, columns: seq<Column>, uniques: seq<seq<string>>)

  /** A table as the database holds it. */
  datatype Table = Table(columns: map<string, ColumnDef>, uniques: seq<seq<string>>)

  type Catalog = map<string, Table>

  /** What a statement can fail with. */
  datatype DbError =
    | ConnectionRefused                          // the database cannot be reached at all
    | QueryFailed(at: nat)                       // the executor failed the statement at this log position
    | DuplicateColumn(table: string)             // a CREATE names one column twice
    | UnresolvedReference(table: string, target: string, targetColumn: string)
    | UndefinedTable(table: string)              // ALTER of a relation that does not exist

  datatype Result<+T> = Ok(value: T) | Err(error: DbError)

  predicate DistinctNames(cols: seq<Column>)
  {
    forall i, j :: 0 <= i < j < |cols| ==> cols[i].name != cols[j].name
  }

  /** Some column in `cols` is called `n`. */
  predicate Named(cols: seq<Column>, n: string)
  {
    exists i :: 0 <= i < |cols| && cols[i].name == n
  }

  /** The columns of a spec, keyed by name. */
  function ColumnsOf(cols: seq<Column>): (m: map<string, ColumnDef>)
    ensures forall n :: n in m <==> Named(cols, n)
    ensures forall i :: 0 <= i < |cols| ==> cols[i].name in m
    ensures DistinctNames(cols) ==> forall i :: 0 <= i < |cols| ==> m[cols[i].name] == cols[i].def
  {
    if |cols| == 0 then map[]
    else
      var rest := ColumnsOf(cols[1..]);
      assert forall i :: 1 <= i < |cols| ==> cols[i] == cols[1..][i - 1];
      rest[cols[0].name := cols[0].def]
  }

  /** The table a successful CREATE of `spec` produces. */
  function TableOf(spec: TableSpec): Table
  {
    Table(ColumnsOf(spec.columns), spec.uniques)
  }

  predicate HasColumn(c: Catalog, table: string, column: string)
  {
    table in c && column in c[table].columns
  }

  /** A reference resolves to an existing table's column, or to the table being created. */
  predicate Resolves(c: Catalog, spec: TableSpec, r: Reference)
  {
    if r.target == spec.name then r.targetColumn in ColumnsOf(spec.columns)
    else HasColumn(c, r.target, r.targetColumn)
  }

  predicate AllResolve(c: Catalog, spec: TableSpec)
  {
    forall i :: 0 <= i < |spec.columns| && spec.columns[i].def.reference.Some? ==>
      Resolves(c, spec, spec.columns[i].def.reference.value)
  }

  /** The first reference among `cols` that does not resolve, scanning left to right. */
  function FirstUnresolved(c: Catalog, spec: TableSpec, cols: seq<Column>): (r: Option<Reference>)
    ensures r.None? <==> forall i :: 0 <= i < |cols| && cols[i].def.reference.Some? ==>
                                       Resolves(c, spec, cols[i].def.reference.value)
    // Otherwise it is the reference of the leftmost column whose reference does not resolve.
    ensures r.Some? ==> !Resolves(c, spec, r.value) &&
                        exists i :: 0 <= i < |cols| && cols[i].def.reference == r &&
                          forall k :: 0 <= k < i && cols[k].def.reference.Some? ==>
                            Resolves(c, spec, cols[k].def.reference.value)
    decreases |cols|
  {
    if |cols| == 0 then None
    else
      var ref := cols[0].def.reference;
      if ref.Some? && !Resolves(c, spec, ref.value) then ref
      else
        var rest := FirstUnresolved(c, spec, cols[1..]);
        assert forall i :: 1 <= i < |cols| ==> cols[i] == cols[1..][i - 1];
        rest
  }

  /** Every existing table keeps its columns and their definitions; tables may only be added. */
  predicate Extends(c: Catalog, c': Catalog)
  {
    forall t :: t in c ==> t in c' && TableExtends(c[t], c'[t])
  }

  predicate TableExtends(a: Table, b: Table)
  {
    && a.uniques == b.uniques
    && forall n :: n in a.columns ==> n in b.columns && b.columns[n] == a.columns[n]
  }

  lemma ExtendsTransitive(c0: Catalog, c1: Catalog, c2: Catalog)
    requires Extends(c0, c1) && Extends(c1, c2)
    ensures Extends(c0, c2)
  {
    forall t | t in c0
      ensures t in c2 && TableExtends(c0[t], c2[t])
    {
      assert TableExtends(c0[t], c1[t]);
      assert TableExtends(c1[t], c2[t]);
    }
  }

  /** `CREATE TABLE IF NOT EXISTS spec` against catalog `c`. */
  function CreateTableIfNotExists(c: Catalog, spec: TableSpec): (r: Result<Catalog>)
    // An existing table is left exactly as it is, even if `spec` defines it differently.
    ensures spec.name in c ==> r == Ok(c)
    // Creation succeeds exactly when the columns are distinct and every reference resolves.
    ensures spec.name !in c ==>
              (r.Ok? <==> DistinctNames(spec.columns) && AllResolve(c, spec))
    ensures r.Ok? ==> r.value.Keys == c.Keys + {spec.name}
    ensures r.Ok? ==> forall t :: t in c ==> r.value[t] == c[t]
    ensures r.Ok? && spec.name !in c ==> r.value[spec.name] == TableOf(spec)
    ensures r.Err? ==> r.error.DuplicateColumn? || r.error.UnresolvedReference?
  {
    if spec.name in c then Ok(c)
    else if !DistinctNames(spec.columns) then Err(DuplicateColumn(spec.name))
    else
      match FirstUnresolved(c, spec, spec.columns)
      case Some(ref) => Err(UnresolvedReference(spec.name, ref.target, ref.targetColumn))
      case None => Ok(c[spec.name := TableOf(spec)])
  }

  /** `ALTER TABLE table ADD COLUMN IF NOT EXISTS column definition` against `c`. */
  function AlterTableAddColumn(c: Catalog, table: string, column: string, definition: string): (r: Result<Catalog>)
    ensures r.Err? <==> table !in c
    ensures r.Err? ==> r.error == UndefinedTable(table)
    ensures HasColumn(c, table, column) ==> r == Ok(c)
    ensures r.Ok? ==> HasColumn(r.value, table, column) && Extends(c, r.value)
    ensures r.Ok? ==> r.value.Keys == c.Keys
    ensures r.Ok? ==> forall t :: t in c && t != table ==> r.value[t] == c[t]
    ensures r.Ok? && !HasColumn(c, table, column) ==>
              r.value[table].columns.Keys == c[table].columns.Keys + {column} &&
              r.value[table].columns[column] == ColumnDef(definition, None)
  {
    if table !in c then Err(UndefinedTable(table))
    else if column in c[table].columns then Ok(c)
    else
      var t := c[table];
      Ok(c[table := t.(columns := t.columns[column := ColumnDef(definition, None)])])
  }

  /** Rows returned by the `information_schema.columns` lookup for (table, column). */
  function ColumnRows(c: Catalog, table: string, column: string): (n: nat)
    ensures n <= 1
    ensures n == 0 <==> !HasColumn(c, table, column)
  {
    if HasColumn(c, table, column) then 1 else 0
  }

  /**
   The lookup sees the ALTER: after a successful add, the lookup for that
   (table, column) finds its row, and every other lookup answers as before.
   */
  lemma LookupSeesAlter(c: Catalog, table: string, column: string, definition: string, t: string, n: string)
    requires AlterTableAddColumn(c, table, column, definition).Ok?
    ensures ColumnRows(AlterTableAddColumn(c, table, column, definition).value, table, column) == 1
    ensures t != table || n != column ==>
              ColumnRows(AlterTableAddColumn(c, table, column, definition).value, t, n) == ColumnRows(c, t, n)
  {
  }
}

=== FILE: executor.dfy ===
/**
 The query executor the bootstrap talks to, as an abstract database: the
 catalog, the log of every statement issued so far, and the executor's own
 failures. `reachable == false` means every query fails (the database cannot
 be reached); `faults` holds the log positions at which an otherwise
 reachable executor fails the statement (a lost connection, a permission
 error). Neither is decided by the bootstrap: they are parameters.
 */
module Executor {
  import opened Catalog

  datatype Stmt =
    | Probe                                                        // SELECT 'test'
    | CreateTable(spec: TableSpec)                                 // CREATE TABLE IF NOT EXISTS
    | SelectColumn(table: string, column: string)                  // information_schema.columns lookup
    | AlterAddColumn(table: string, column: string, definition: string)  // ADD COLUMN IF NOT EXISTS

  datatype Db = Db(catalog: Catalog, log: seq<Stmt>, reachable: bool, faults: set<nat>)

  /** What one `query` call returns: the database afterwards, and a row count or the error thrown. */
  datatype Reply = Reply(db: Db, rows: Result<nat>)

  /** The next statement reaches the database and the executor does not fail it. */
  predicate Live(db: Db)
  {
    db.reachable && |db.log| !in db.faults
  }

  /** The executor fails no statement from now on. */
  predicate Healthy(db: Db)
  {
    db.reachable && forall n :: n in db.faults ==> n < |db.log|
  }

  /** Number of ALTER statements in a stretch of the log. */
  function Alters(stmts: seq<Stmt>): nat
  {
    if |stmts| == 0 then 0
    else (if stmts[0].AlterAddColumn? then 1 else 0) + Alters(stmts[1..])
  }

  lemma {:induction false} AltersAppend(a: seq<Stmt>, b: seq<Stmt>)
    ensures Alters(a + b) == Alters(a) + Alters(b)
  {
    if |a| == 0 {
      assert a + b == b;
    } else {
      assert (a + b)[0] == a[0];
      assert (a + b)[1..] == a[1..] + b;
      AltersAppend(a[1..], b);
    }
  }

  /** One `dbConnection.query(stmt)` call. */
  function Query(db: Db, s: Stmt): (r: Reply)
    ensures r.db.log == db.log + [s]
    ensures r.db.reachable == db.reachable && r.db.faults == db.faults
    ensures Healthy(db) ==> Live(db) && Healthy(r.db)
    // The executor's own failures come first and change nothing.
    ensures !db.reachable ==> r == Reply(db.(log := db.log + [s]), Err(ConnectionRefused))
    ensures db.reachable && !Live(db) ==> r == Reply(db.(log := db.log + [s]), Err(QueryFailed(|db.log|)))
    // A rejected statement changes nothing; only DDL can change the catalog.
    ensures r.rows.Err? || s.Probe? || s.SelectColumn? ==> r.db.catalog == db.catalog
    ensures Live(db) && s.Probe? ==> r.rows == Ok(1)
    ensures Live(db) && s.SelectColumn? ==> r.rows == Ok(ColumnRows(db.catalog, s.table, s.column))
    ensures Live(db) && s.CreateTable? ==>
              match CreateTableIfNotExists(db.catalog, s.spec)
              case Ok(c) => r.rows == Ok(0) && r.db.catalog == c
              case Err(e) => r.rows == Err(e)
    ensures Live(db) && s.AlterAddColumn? ==>
              match AlterTableAddColumn(db.catalog, s.table, s.column, s.definition)
              case Ok(c) => r.rows == Ok(0) && r.db.catalog == c
              case Err(e) => r.rows == Err(e)
  {
    var issued := db.(log := db.log + [s]);
    if !db.reachable then Reply(issued, Err(ConnectionRefused))
    else if |db.log| in db.faults then Reply(issued, Err(QueryFailed(|db.log|)))
    else
      match s
      case Probe => Reply(issued, Ok(1))
      case SelectColumn(t, col) => Reply(issued, Ok(ColumnRows(db.catalog, t, col)))
      case CreateTable(spec) =>
        (match CreateTableIfNotExists(db.catalog, spec)
         case Ok(c) => Reply(issued.(catalog := c), Ok(0))
         case Err(e) => Reply(issued, Err(e)))
      case AlterAddColumn(t, col, def) =>
        (match AlterTableAddColumn(db.catalog, t, col, def)
         case Ok(c) => Reply(issued.(catalog := c), Ok(0))
         case Err(e) => Reply(issued, Err(e)))
  }
}

=== FILE: migration.dfy ===
/**
 The schema evolution engine: the `addColumnIfNotExists` helper and the
 migration routine that runs at module load. The migration is a fail-fast
 sequence of steps — the five conditional creates in registry order, then the
 additive columns — with no transaction around it: a failing step stops the
 sequence, and whatever earlier steps did stays in the catalog.
 */
module Migration {
  import opened Catalog
  import opened Executor
  import opened Registry

  datatype Step =
    | Create(spec: TableSpec)
    | EnsureColumn(table: string, column: string, definition: string)

  /** How a run ended: it completed, or it stopped at the first error, which is logged. */
  datatype Outcome = Done | Failed(error: DbError)

  datatype Run = Run(db: Db, outcome: Outcome)

  /** `c` already reflects the step, so running it again changes nothing. */
  predicate Settled(c: Catalog, step: Step)
  {
    match step
    case Create(spec) => spec.name in c
    case EnsureColumn(t, col, _) => HasColumn(c, t, col)
  }

  /** Same executor, and a log that only grew. */
  predicate Follows(db: Db, db': Db)
  {
    db'.reachable == db.reachable && db'.faults == db.faults && db.log <= db'.log
  }

  lemma FollowsTransitive(db0: Db, db1: Db, db2: Db)
    requires Follows(db0, db1) && Follows(db1, db2)
    ensures Follows(db0, db2)
  {
    assert db0.log == db1.log[..|db0.log|] && db1.log == db2.log[..|db1.log|];
    assert db2.log[..|db1.log|][..|db0.log|] == db2.log[..|db0.log|];
  }

  lemma HealthyFollows(db: Db, db': Db)
    requires Healthy(db) && Follows(db, db')
    ensures Healthy(db')
  {
  }

  lemma SettledMonotone(c: Catalog, c': Catalog, step: Step)
    requires Extends(c, c') && Settled(c, step)
    ensures Settled(c', step)
  {
    if step.EnsureColumn? {
      assert TableExtends(c[step.table], c'[step.table]);
    }
  }

  /**
   Every statement issued between `db` and `after` reached the database and
   was not failed by the executor.
   */
  predicate MetNoFault(db: Db, after: Db)
  {
    forall i :: |db.log| <= i < |after.log| ==> db.reachable && i !in db.faults
  }

  /**
   `addColumnIfNotExists(table, column, definition)`: look the column up in
   the metadata catalog, and issue `ALTER TABLE .. ADD COLUMN IF NOT EXISTS`
   only when the lookup returns no row.
   */
  function AddColumnIfNotExists(db: Db, table: string, column: string, definition: string): (r: Run)
    ensures Follows(db, r.db) && Extends(db.catalog, r.db.catalog)
    ensures r.db.log == db.log + [SelectColumn(table, column)] ||
            r.db.log == db.log + [SelectColumn(table, column), AlterAddColumn(table, column, definition)]
    // The ALTER is issued exactly when the lookup ran and found no matching row.
    ensures |r.db.log| == |db.log| + 2 <==> Live(db) && !HasColumn(db.catalog, table, column)
    // An existing column: the catalog is left as it is.
    ensures HasColumn(db.catalog, table, column) ==> r.db.catalog == db.catalog
    ensures r.outcome.Done? ==> HasColumn(r.db.catalog, table, column)
    // A column the helper adds carries the caller's definition and no reference.
    ensures r.outcome.Done? && !HasColumn(db.catalog, table, column) ==>
              r.db.catalog[table].columns[column] == ColumnDef(definition, None)
    ensures r.outcome.Failed? ==> r.db.catalog == db.catalog
    // Executor errors propagate: a failed lookup fails the call, and so does a failed ALTER.
    ensures !Live(db) ==> r.outcome.Failed? && r.db.log == db.log + [SelectColumn(table, column)]
    ensures (Live(db) && !HasColumn(db.catalog, table, column) &&
             !Live(Query(db, SelectColumn(table, column)).db)) ==> r.outcome.Failed?
    ensures r.outcome.Done? ==> MetNoFault(db, r.db)
    // Only the named table can change, and in it only the named column can appear.
    ensures r.db.catalog.Keys == db.catalog.Keys
    ensures forall t :: t in db.catalog && t != table ==> r.db.catalog[t] == db.catalog[t]
    ensures table in db.catalog ==>
              r.db.catalog[table].columns.Keys <= db.catalog[table].columns.Keys + {column}
    // With a healthy executor the only failure is a missing table.
    ensures Healthy(db) ==> (r.outcome.Done? <==> table in db.catalog)
    ensures Healthy(db) && table !in db.catalog ==> r.outcome == Failed(UndefinedTable(table))
  {
    var lookup := Query(db, SelectColumn(table, column));
    match lookup.rows
    case Err(e) => Run(lookup.db, Failed(e))
    case Ok(n) =>
      if n == 0 then
        var alter := Query(lookup.db, AlterAddColumn(table, column, definition));
        Run(alter.db, if alter.rows.Ok? then Done else Failed(alter.rows.error))
      else Run(lookup.db, Done)
  }

  /** Calling the helper a second time with the same arguments issues only the lookup. */
  lemma AddColumnIdempotent(db: Db, table: string, column: string, definition: string)
    requires AddColumnIfNotExists(db, table, column, definition).outcome.Done?
    ensures var first := AddColumnIfNotExists(db, table, column, definition);
            var second := AddColumnIfNotExists(first.db, table, column, definition);
            && second.db.catalog == first.db.catalog
            && second.db.log == first.db.log + [SelectColumn(table, column)]
            && HasColumn(second.db.catalog, table, column)
            && (Healthy(first.db) ==> second.outcome.Done?)
  {
  }

  /** One step of a run. */
  function ExecStep(db: Db, step: Step): (r: Run)
    ensures Follows(db, r.db) && Extends(db.catalog, r.db.catalog)
    ensures r.outcome.Failed? ==> r.db.catalog == db.catalog
    // An executor error is never swallowed.
    ensures !Live(db) ==> r.outcome.Failed?
    ensures r.outcome.Done? ==> MetNoFault(db, r.db)
    ensures r.outcome.Done? ==> Settled(r.db.catalog, step)
    ensures Settled(db.catalog, step) ==>
              r.db.catalog == db.catalog && Alters(r.db.log[|db.log|..]) == 0
    ensures Healthy(db) && Settled(db.catalog, step) ==> r.outcome.Done?
  {
    match step
    case Create(spec) =>
      var q := Query(db, CreateTable(spec));
      assert q.db.log[|db.log|..] == [CreateTable(spec)];
      assert Alters([CreateTable(spec)]) == 0;
      Run(q.db, if q.rows.Ok? then Done else Failed(q.rows.error))
    case EnsureColumn(t, col, def) =>
      var r := AddColumnIfNotExists(db, t, col, def);
      assert HasColumn(db.catalog, t, col) ==> r.db.log[|db.log|..] == [SelectColumn(t, col)];
      assert Alters([SelectColumn(t, col)]) == 0;
      r
  }

  /** Run the steps in order, stopping at the first failure. */
  function RunSteps(db: Db, steps: seq<Step>): (r: Run)
    ensures Follows(db, r.db) && Extends(db.catalog, r.db.catalog)
    ensures |steps| == 0 ==> r == Run(db, Done)
    decreases |steps|
  {
    if |steps| == 0 then Run(db, Done)
    else
      var first := ExecStep(db, steps[0]);
      if first.outcome.Failed? then first
      else
        var rest := RunSteps(first.db, steps[1..]);
        FollowsTransitive(db, first.db, rest.db);
        ExtendsTransitive(db.catalog, first.db.catalog, rest.db.catalog);
        rest
  }

  /** A completed run met no executor error: every statement it issued reached the database and succeeded. */
  lemma {:induction false} RunDoneMetNoFault(db: Db, steps: seq<Step>)
    requires RunSteps(db, steps).outcome.Done?
    ensures MetNoFault(db, RunSteps(db, steps).db)
    decreases |steps|
  {
    if |steps| > 0 {
      var first := ExecStep(db, steps[0]);
      RunDoneMetNoFault(first.db, steps[1..]);
    }
  }

  /** Running `a + b` is running `a`, then `b` only if `a` completed. */
  lemma {:induction false} RunAppend(db: Db, a: seq<Step>, b: seq<Step>)
    ensures RunSteps(db, a + b) ==
            (var ra := RunSteps(db, a); if ra.outcome.Failed? then ra else RunSteps(ra.db, b))
    decreases |a|
  {
    if |a| == 0 {
      assert a + b == b;
    } else {
      assert (a + b)[0] == a[0];
      assert (a + b)[1..] == a[1..] + b;
      var first := ExecStep(db, a[0]);
      if first.outcome.Done? {
        RunAppend(first.db, a[1..], b);
      }
    }
  }

  /**
   Fail-fast without rollback: a failed run failed at some step `k`; the steps
   before it all completed, nothing after it ran, and the catalog is the one
   the first `k` steps left behind.
   */
  lemma {:induction false} FailFast(db: Db, steps: seq<Step>) returns (k: nat)
    requires RunSteps(db, steps).outcome.Failed?
    ensures k < |steps|
    ensures RunSteps(db, steps[..k]).outcome.Done?
    ensures RunSteps(db, steps) == ExecStep(RunSteps(db, steps[..k]).db, steps[k])
    ensures RunSteps(db, steps).db.catalog == RunSteps(db, steps[..k]).db.catalog
    decreases |steps|
  {
    var first := ExecStep(db, steps[0]);
    if first.outcome.Failed? {
      k := 0;
      assert steps[..0] == [];
    } else {
      var k' := FailFast(first.db, steps[1..]);
      k := k' + 1;
      assert steps[..k][0] == steps[0];
      assert steps[..k][1..] == steps[1..][..k'];
    }
  }

  /** After a completed run every step is settled. */
  lemma {:induction false} DoneSettlesAll(db: Db, steps: seq<Step>)
    requires RunSteps(db, steps).outcome.Done?
    ensures forall i :: 0 <= i < |steps| ==> Settled(RunSteps(db, steps).db.catalog, steps[i])
    decreases |steps|
  {
    if |steps| > 0 {
      var first := ExecStep(db, steps[0]);
      var final := RunSteps(db, steps).db.catalog;
      DoneSettlesAll(first.db, steps[1..]);
      SettledMonotone(first.db.catalog, final, steps[0]);
      forall i | 1 <= i < |steps|
        ensures Settled(final, steps[i])
      {
        assert steps[i] == steps[1..][i - 1];
      }
    }
  }

  /** Running steps that are all settled changes nothing and issues no ALTER. */
  lemma {:induction false} SettledRunIsInert(db: Db, steps: seq<Step>)
    requires forall i :: 0 <= i < |steps| ==> Settled(db.catalog, steps[i])
    ensures RunSteps(db, steps).db.catalog == db.catalog
    ensures Alters(RunSteps(db, steps).db.log[|db.log|..]) == 0
    ensures Healthy(db) ==> RunSteps(db, steps).outcome.Done?
    decreases |steps|
  {
    var r := RunSteps(db, steps);
    if |steps| == 0 {
      assert r.db.log[|db.log|..] == [];
    } else {
      var first := ExecStep(db, steps[0]);
      if first.outcome.Done? {
        forall i | 0 <= i < |steps[1..]|
          ensures Settled(first.db.catalog, steps[1..][i])
        {
          assert steps[1..][i] == steps[i + 1];
        }
        SettledRunIsInert(first.db, steps[1..]);
        assert r.db.log[|db.log|..] == first.db.log[|db.log|..] + r.db.log[|first.db.log|..];
        AltersAppend(first.db.log[|db.log|..], r.db.log[|first.db.log|..]);
        if Healthy(db) {
          HealthyFollows(db, first.db);
        }
      }
    }
  }

  /**
   Re-running after a completed run, with any executor behaviour: the catalog
   is already a fixed point, no ALTER is issued, and a healthy executor
   completes again.
   */
  lemma RerunAfterSuccess(db: Db, db2: Db, steps: seq<Step>)
    requires RunSteps(db, steps).outcome.Done?
    requires db2.catalog == RunSteps(db, steps).db.catalog
    ensures RunSteps(db2, steps).db.catalog == db2.catalog
    ensures Alters(RunSteps(db2, steps).db.log[|db2.log|..]) == 0
    ensures Healthy(db2) ==> RunSteps(db2, steps).outcome.Done?
  {
    DoneSettlesAll(db, steps);
    SettledRunIsInert(db2, steps);
  }

  /** With a healthy executor a step's effect depends only on the catalog. */
  lemma StepDeterministic(db: Db, db2: Db, step: Step)
    requires Healthy(db) && Healthy(db2) && db.catalog == db2.catalog
    ensures ExecStep(db, step).db.catalog == ExecStep(db2, step).db.catalog
    ensures ExecStep(db, step).outcome == ExecStep(db2, step).outcome
  {
  }

  /**
   With a healthy executor, running the steps a second time from wherever the
   first run left the catalog — completed or not — gives the same catalog and
   the same verdict: the result of a run is a fixed point.
   */
  lemma {:induction false} RerunFixedPoint(db: Db, db2: Db, steps: seq<Step>)
    requires Healthy(db) && Healthy(db2)
    requires db2.catalog == RunSteps(db, steps).db.catalog
    ensures RunSteps(db2, steps).db.catalog == db2.catalog
    ensures RunSteps(db2, steps).outcome == RunSteps(db, steps).outcome
    decreases |steps|
  {
    if |steps| > 0 {
      var first := ExecStep(db, steps[0]);
      var first2 := ExecStep(db2, steps[0]);
      if first.outcome.Failed? {
        StepDeterministic(db, db2, steps[0]);
      } else {
        var rest := RunSteps(first.db, steps[1..]);
        SettledMonotone(first.db.catalog, rest.db.catalog, steps[0]);
        HealthyFollows(db, first.db);
        HealthyFollows(db2, first2.db);
        RerunFixedPoint(first.db, first2.db, steps[1..]);
      }
    }
  }

  /** One conditional create per spec, in order. */
  function Creates(specs: seq<TableSpec>): (steps: seq<Step>)
    ensures |steps| == |specs|
    ensures forall i :: 0 <= i < |specs| ==> steps[i] == Create(specs[i])
  {
    seq(|specs|, i requires 0 <= i < |specs| => Create(specs[i]))
  }

  function NameSet(specs: seq<TableSpec>): set<string>
  {
    set i | 0 <= i < |specs| :: specs[i].name
  }

  /** The table `spec` names exists and has at least the columns `spec` declares. */
  predicate Covers(c: Catalog, spec: TableSpec)
  {
    spec.name in c && forall j :: 0 <= j < |spec.columns| ==> spec.columns[j].name in c[spec.name].columns
  }

  /**
   A crash left the first `m` tables of `specs` in place (with at least their
   declared columns) and none of the rest.
   */
  predicate PartiallyCreated(c: Catalog, specs: seq<TableSpec>, m: nat)
  {
    && m <= |specs|
    && (forall i :: 0 <= i < m ==> Covers(c, specs[i]))
    && (forall i :: m <= i < |specs| ==> specs[i].name !in c)
  }

  lemma TableOfCovers(spec: TableSpec)
    ensures forall j :: 0 <= j < |spec.columns| ==> spec.columns[j].name in TableOf(spec).columns
  {
  }

  /** The catalog part of the invariant of creating a prefix of a registry. */
  ghost predicate PrefixCatalog(c: Catalog, specs: seq<TableSpec>, m: nat, k: nat, ck: Catalog)
    requires m <= |specs| && k <= |specs|
  {
    && ck.Keys == c.Keys + NameSet(specs[..k])
    && (forall t :: t in c ==> ck[t] == c[t])
    && (forall i :: m <= i < k ==> ck[specs[i].name] == TableOf(specs[i]))
    && (forall i :: 0 <= i < k ==> Covers(ck, specs[i]))
  }

  /** Invariant of creating a prefix of a well-formed, dependency-ordered registry. */
  ghost predicate CreatedPrefix(c: Catalog, specs: seq<TableSpec>, m: nat, k: nat, r: Run)
    requires m <= |specs| && k <= |specs|
  {
    && r.outcome.Done?
    && Healthy(r.db)
    && PrefixCatalog(c, specs, m, k, r.db.catalog)
  }

  lemma NameSetSnoc(specs: seq<TableSpec>, j: nat)
    requires j < |specs|
    ensures NameSet(specs[..j + 1]) == NameSet(specs[..j]) + {specs[j].name}
  {
    forall i | 0 <= i < j ensures specs[..j + 1][i] == specs[..j][i] {}
    assert specs[..j + 1][j] == specs[j];
  }

  /** A spec that was absent at the start is still absent after creating those before it. */
  lemma StillAbsent(c: Catalog, specs: seq<TableSpec>, j: nat, ck: Catalog)
    requires WellFormed(specs) && j < |specs|
    requires specs[j].name !in c && ck.Keys == c.Keys + NameSet(specs[..j])
    ensures specs[j].name !in ck
  {
    forall i | 0 <= i < j
      ensures specs[..j][i].name != specs[j].name
    {
      assert specs[..j][i] == specs[i];
    }
  }

  /** Every reference of `specs[j]` resolves once the earlier specs are covered. */
  lemma ReferencesResolve(specs: seq<TableSpec>, j: nat, ck: Catalog)
    requires WellFormed(specs) && DependencyOrdered(specs) && j < |specs|
    requires forall i :: 0 <= i < j ==> Covers(ck, specs[i])
    ensures AllResolve(ck, specs[j])
  {
    var spec := specs[j];
    assert RefersBack(specs[..j], spec);
    forall col | 0 <= col < |spec.columns| && spec.columns[col].def.reference.Some?
      ensures Resolves(ck, spec, spec.columns[col].def.reference.value)
    {
      var ref := spec.columns[col].def.reference.value;
      assert Declares(specs[..j], ref);
      var kk, jj :| 0 <= kk < j && 0 <= jj < |specs[..j][kk].columns| &&
        specs[..j][kk].name == ref.target && specs[..j][kk].columns[jj].name == ref.targetColumn;
      assert specs[kk].name != spec.name;
      assert Covers(ck, specs[kk]);
    }
  }

  /** What one healthy conditional create does to the catalog. */
  lemma CreateStep(db: Db, spec: TableSpec)
    requires Healthy(db)
    requires spec.name !in db.catalog ==> DistinctNames(spec.columns) && AllResolve(db.catalog, spec)
    ensures ExecStep(db, Create(spec)).outcome.Done?
    ensures Healthy(ExecStep(db, Create(spec)).db)
    ensures ExecStep(db, Create(spec)).db.catalog ==
              if spec.name in db.catalog then db.catalog else db.catalog[spec.name := TableOf(spec)]
  {
    HealthyFollows(db, ExecStep(db, Create(spec)).db);
  }

  /** Passing over a spec that was already there keeps the catalog invariant. */
  lemma PrefixKeep(c: Catalog, specs: seq<TableSpec>, m: nat, j: nat, ck: Catalog)
    requires PartiallyCreated(c, specs, m) && j < m
    requires PrefixCatalog(c, specs, m, j, ck)
    ensures PrefixCatalog(c, specs, m, j + 1, ck)
  {
    NameSetSnoc(specs, j);
    assert specs[j].name in c;
  }

  /** Creating a spec that was absent keeps the catalog invariant. */
  lemma PrefixAdd(c: Catalog, specs: seq<TableSpec>, m: nat, j: nat, ck: Catalog)
    requires WellFormed(specs) && PartiallyCreated(c, specs, m) && m <= j < |specs|
    requires PrefixCatalog(c, specs, m, j, ck)
    ensures PrefixCatalog(c, specs, m, j + 1, ck[specs[j].name := TableOf(specs[j])])
  {
    var spec := specs[j];
    var ca := ck[spec.name := TableOf(spec)];
    NameSetSnoc(specs, j);
    assert spec.name !in c;
    PrefixAddBuilt(specs, m, j, ck);
    PrefixAddCovers(specs, j, ck);
  }

  /** The tables built so far stay as built when a differently named one is added. */
  lemma PrefixAddBuilt(specs: seq<TableSpec>, m: nat, j: nat, ck: Catalog)
    requires WellFormed(specs) && m <= j < |specs|
    requires forall i :: m <= i < j ==> specs[i].name in ck && ck[specs[i].name] == TableOf(specs[i])
    ensures forall i :: m <= i < j + 1 ==>
              ck[specs[j].name := TableOf(specs[j])][specs[i].name] == TableOf(specs[i])
  {
    var ca := ck[specs[j].name := TableOf(specs[j])];
    forall i | m <= i < j + 1
      ensures ca[specs[i].name] == TableOf(specs[i])
    {
      if i < j {
        assert specs[i].name != specs[j].name;
      }
    }
  }

  /** Coverage of the earlier specs survives adding a differently named table. */
  lemma PrefixAddCovers(specs: seq<TableSpec>, j: nat, ck: Catalog)
    requires WellFormed(specs) && j < |specs|
    requires forall i :: 0 <= i < j ==> Covers(ck, specs[i])
    ensures forall i :: 0 <= i < j + 1 ==> Covers(ck[specs[j].name := TableOf(specs[j])], specs[i])
  {
    var ca := ck[specs[j].name := TableOf(specs[j])];
    TableOfCovers(specs[j]);
    forall i | 0 <= i < j + 1
      ensures Covers(ca, specs[i])
    {
      if i < j {
        assert specs[i].name != specs[j].name;
        assert Covers(ck, specs[i]);
      }
    }
  }

  /** One more create keeps the prefix invariant. */
  lemma CreateNext(db: Db, specs: seq<TableSpec>, m: nat, j: nat, before: Run, after: Run)
    requires WellFormed(specs) && DependencyOrdered(specs)
    requires PartiallyCreated(db.catalog, specs, m) && j < |specs|
    requires CreatedPrefix(db.catalog, specs, m, j, before)
    requires after == ExecStep(before.db, Create(specs[j]))
    ensures CreatedPrefix(db.catalog, specs, m, j + 1, after)
  {
    var c := db.catalog;
    var spec := specs[j];
    var ck := before.db.catalog;
    if j < m {
      assert Covers(c, spec);
      CreateStep(before.db, spec);
      PrefixKeep(c, specs, m, j, ck);
    } else {
      NameSetSnoc(specs, j);
      StillAbsent(c, specs, j, ck);
      assert DistinctNames(spec.columns);
      ReferencesResolve(specs, j, ck);
      CreateStep(before.db, spec);
      PrefixAdd(c, specs, m, j, ck);
    }
  }

  lemma CreatesSnoc(specs: seq<TableSpec>, j: nat)
    requires j < |specs|
    ensures Creates(specs[..j + 1]) == Creates(specs[..j]) + [Create(specs[j])]
  {
  }

  /** Running one more step after a completed run. */
  lemma RunSnoc(db: Db, steps: seq<Step>, step: Step)
    requires RunSteps(db, steps).outcome.Done?
    ensures RunSteps(db, steps + [step]) == ExecStep(RunSteps(db, steps).db, step)
  {
    RunAppend(db, steps, [step]);
  }

  lemma {:induction false} CreatesPrefix(db: Db, specs: seq<TableSpec>, m: nat, k: nat)
    requires Healthy(db) && WellFormed(specs) && DependencyOrdered(specs)
    requires PartiallyCreated(db.catalog, specs, m)
    requires k <= |specs|
    ensures CreatedPrefix(db.catalog, specs, m, k, RunSteps(db, Creates(specs[..k])))
    decreases k
  {
    if k == 0 {
      assert specs[..0] == [];
      assert NameSet(specs[..0]) == {};
    } else {
      var j := k - 1;
      CreatesPrefix(db, specs, m, j);
      var before := RunSteps(db, Creates(specs[..j]));
      CreatesSnoc(specs, j);
      RunSnoc(db, Creates(specs[..j]), Create(specs[j]));
      CreateNext(db, specs, m, j, before, ExecStep(before.db, Create(specs[j])));
    }
  }

  /**
   Creating a well-formed, dependency-ordered registry against a partially
   created schema completes: the tables already there are left untouched and
   exactly the missing ones are created, each as its spec defines it.
   */
  lemma OrderedCreatesComplete(db: Db, specs: seq<TableSpec>, m: nat)
    requires Healthy(db) && WellFormed(specs) && DependencyOrdered(specs)
    requires PartiallyCreated(db.catalog, specs, m)
    ensures RunSteps(db, Creates(specs)).outcome.Done?
    ensures RunSteps(db, Creates(specs)).db.catalog.Keys == db.catalog.Keys + NameSet(specs)
    ensures forall t :: t in db.catalog ==> RunSteps(db, Creates(specs)).db.catalog[t] == db.catalog[t]
    ensures forall i :: m <= i < |specs| ==>
              RunSteps(db, Creates(specs)).db.catalog[specs[i].name] == TableOf(specs[i])
  {
    CreatesPrefix(db, specs, m, |specs|);
    assert specs[..|specs|] == specs;
  }

  /** A create that completed ran `CREATE TABLE IF NOT EXISTS` against the catalog it found. */
  lemma CreateDone(db: Db, spec: TableSpec)
    requires ExecStep(db, Create(spec)).outcome.Done?
    ensures ExecStep(db, Create(spec)).db.catalog.Keys == db.catalog.Keys + {spec.name}
    ensures forall t :: t in db.catalog ==> ExecStep(db, Create(spec)).db.catalog[t] == db.catalog[t]
    ensures spec.name !in db.catalog ==> ExecStep(db, Create(spec)).db.catalog[spec.name] == TableOf(spec)
  {
  }

  /** One more completed create moves a partly created catalog one table further. */
  lemma PartialStep(c: Catalog, c': Catalog, specs: seq<TableSpec>, m: nat, j: nat)
    requires WellFormed(specs) && j < |specs| && PartiallyCreated(c, specs, if j < m then m else j)
    requires c'.Keys == c.Keys + {specs[j].name}
    requires forall t :: t in c ==> c'[t] == c[t]
    requires specs[j].name !in c ==> c'[specs[j].name] == TableOf(specs[j])
    ensures PartiallyCreated(c', specs, if j + 1 < m then m else j + 1)
  {
    TableOfCovers(specs[j]);
  }

  /** Growing a catalog keeps every table it already covers covered. */
  lemma PartialExtends(c: Catalog, c': Catalog, specs: seq<TableSpec>)
    requires PartiallyCreated(c, specs, |specs|) && Extends(c, c')
    ensures PartiallyCreated(c', specs, |specs|)
  {
    forall i | 0 <= i < |specs| ensures Covers(c', specs[i]) {
      assert Covers(c, specs[i]) && TableExtends(c[specs[i].name], c'[specs[i].name]);
    }
  }

  /** A completed prefix of the creates leaves the catalog partly created up to that prefix. */
  lemma {:induction false} DonePrefixPartial(db: Db, specs: seq<TableSpec>, m: nat, k: nat)
    requires WellFormed(specs) && PartiallyCreated(db.catalog, specs, m) && k <= |specs|
    requires RunSteps(db, Creates(specs[..k])).outcome.Done?
    ensures PartiallyCreated(RunSteps(db, Creates(specs[..k])).db.catalog, specs, if k < m then m else k)
    decreases k
  {
    if k == 0 {
      assert specs[..0] == [];
    } else {
      var j := k - 1;
      CreatesSnoc(specs, j);
      RunAppend(db, Creates(specs[..j]), [Create(specs[j])]);
      var before := RunSteps(db, Creates(specs[..j]));
      assert before.outcome.Done?;
      DonePrefixPartial(db, specs, m, j);
      RunSnoc(db, Creates(specs[..j]), Create(specs[j]));
      var after := ExecStep(before.db, Create(specs[j]));
      CreateDone(before.db, specs[j]);
      PartialStep(before.db.catalog, after.db.catalog, specs, m, j);
    }
  }

  /**
   Whatever a run of the creates does, complete or stop at a fault part way,
   it leaves a partly created catalog, which is where the next run recovers from.
   */
  lemma CreatesLeavePartial(db: Db, specs: seq<TableSpec>, m: nat) returns (m': nat)
    requires WellFormed(specs) && PartiallyCreated(db.catalog, specs, m)
    ensures PartiallyCreated(RunSteps(db, Creates(specs)).db.catalog, specs, m')
    ensures RunSteps(db, Creates(specs)).outcome.Done? ==> m' == |specs|
  {
    var steps := Creates(specs);
    if RunSteps(db, steps).outcome.Done? {
      assert specs[..|specs|] == specs;
      DonePrefixPartial(db, specs, m, |specs|);
      m' := |specs|;
    } else {
      var k := FailFast(db, steps);
      assert steps[..k] == Creates(specs[..k]);
      DonePrefixPartial(db, specs, m, k);
      m' := if k < m then m else k;
    }
  }

  /** The statements a run of `Creates(specs)` issues when nothing fails. */
  function CreateStmts(specs: seq<TableSpec>): (stmts: seq<Stmt>)
    ensures |stmts| == |specs|
    ensures forall i :: 0 <= i < |specs| ==> stmts[i] == CreateTable(specs[i])
  {
    seq(|specs|, i requires 0 <= i < |specs| => CreateTable(specs[i]))
  }

  /** The first k' + 1 create statements are the head's CREATE followed by the tail's first k'. */
  lemma CreateStmtsCons(specs: seq<TableSpec>, k': nat)
    requires |specs| > 0 && k' <= |specs| - 1
    ensures CreateStmts(specs)[..k' + 1] == [CreateTable(specs[0])] + CreateStmts(specs[1..])[..k']
  {
    var a := CreateStmts(specs)[..k' + 1];
    var b := [CreateTable(specs[0])] + CreateStmts(specs[1..])[..k'];
    assert |a| == |b|;
    forall i | 0 <= i < |a| ensures a[i] == b[i] {
      if i > 0 { assert specs[1..][i - 1] == specs[i]; }
    }
  }

  lemma AppendAssoc<T>(a: seq<T>, b: seq<T>, c: seq<T>)
    ensures (a + b) + c == a + (b + c)
  {
  }

  /** The log a single create step leaves: the one CREATE appended. */
  lemma CreateStepLog(db: Db, spec: TableSpec)
    ensures ExecStep(db, Create(spec)).db.log == db.log + [CreateTable(spec)]
  {
  }

  /**
   A run of creates issues one statement per spec, strictly in order, and
   stops right after the first one that fails.
   */
  lemma {:induction false} CreatesIssueInOrder(db: Db, specs: seq<TableSpec>) returns (k: nat)
    ensures k <= |specs|
    ensures RunSteps(db, Creates(specs)).db.log == db.log + CreateStmts(specs)[..k]
    ensures RunSteps(db, Creates(specs)).outcome.Done? ==> k == |specs|
    ensures RunSteps(db, Creates(specs)).outcome.Failed? ==> k >= 1
    decreases |specs|
  {
    if |specs| == 0 {
      k := 0;
    } else {
      var first := ExecStep(db, Create(specs[0]));
      CreateStepLog(db, specs[0]);
      CreatesUnfold(db, specs);
      if first.outcome.Failed? {
        k := 1;
        assert CreateStmts(specs)[..1] == [CreateTable(specs[0])];
      } else {
        var k' := CreatesIssueInOrder(first.db, specs[1..]);
        k := k' + 1;
        CreateStmtsCons(specs, k');
        AppendAssoc(db.log, [CreateTable(specs[0])], CreateStmts(specs[1..])[..k']);
      }
    }
  }

  /** One unfolding of a run of creates. */
  lemma CreatesUnfold(db: Db, specs: seq<TableSpec>)
    requires |specs| > 0
    ensures var first := ExecStep(db, Create(specs[0]));
      RunSteps(db, Creates(specs)) ==
        if first.outcome.Failed? then first else RunSteps(first.db, Creates(specs[1..]))
  {
    assert Creates(specs)[0] == Create(specs[0]);
    assert Creates(specs)[1..] == Creates(specs[1..]);
  }

  /**
   The order is load-bearing: a registry whose first table references another
   table cannot be created against an empty schema; the very first create
   fails, and nothing is created.
   */
  lemma RootMustComeFirst(db: Db, specs: seq<TableSpec>, j: nat)
    requires Healthy(db) && db.catalog == map[]
    requires |specs| > 0 && DistinctNames(specs[0].columns)
    requires j < |specs[0].columns| && specs[0].columns[j].def.reference.Some?
    requires specs[0].columns[j].def.reference.value.target != specs[0].name
    ensures RunSteps(db, Creates(specs)).outcome.Failed?
    ensures RunSteps(db, Creates(specs)).outcome.error.UnresolvedReference?
    ensures RunSteps(db, Creates(specs)).outcome.error.table == specs[0].name
    ensures RunSteps(db, Creates(specs)).db.catalog == map[]
    ensures RunSteps(db, Creates(specs)).db.log == db.log + [CreateTable(specs[0])]
  {
    assert !Resolves(db.catalog, specs[0], specs[0].columns[j].def.reference.value);
    assert !AllResolve(db.catalog, specs[0]);
    assert Creates(specs)[0] == Create(specs[0]);
  }
}

=== FILE: referential.dfy ===
/**
 The referential actions the schema declares, on an abstract row store: each
 table is a map from primary key to the row's foreign-key columns (other
 columns play no part and are left out).

 - questions.userid, answers.userid, answer_votes.userid and
   answer_comments.userid reference users and are set to NULL when the user
   is deleted;
 - answers.questionid references questions and cascades;
 - answer_votes.answerid and answer_comments.answerid are NOT NULL,
   reference answers and cascade;
 - answer_votes is unique on (answerid, userid), and a NULL userid never
   clashes with anything.
 */
module Referential {
  import opened Catalog

  datatype Question = Question(user: Option<nat>)
  datatype Answer = Answer(user: Option<nat>, question: Option<nat>)
  datatype Vote = Vote(answer: nat, user: Option<nat>)
  datatype Comment = Comment(answer: nat, user: Option<nat>)

  datatype Store = Store(
    users: set<nat>,
    questions: map<nat, Question>,
    answers: map<nat, Answer>,
    votes: map<nat, Vote>,
    comments: map<nat, Comment>)

  /** A nullable reference to users is NULL or names an existing user. */
  predicate UserRef(s: Store, u: Option<nat>)
  {
    u.None? || u.value in s.users
  }

  /** Every foreign key of every row resolves: the state the database maintains. */
  predicate Consistent(s: Store)
  {
    && (forall q :: q in s.questions ==> UserRef(s, s.questions[q].user))
    && (forall a :: a in s.answers ==> UserRef(s, s.answers[a].user))
    && (forall a :: a in s.answers && s.answers[a].question.Some? ==>
          s.answers[a].question.value in s.questions)
    && (forall v :: v in s.votes ==> UserRef(s, s.votes[v].user) && s.votes[v].answer in s.answers)
    && (forall c :: c in s.comments ==> UserRef(s, s.comments[c].user) && s.comments[c].answer in s.answers)
  }

  /** Two votes clash when they share the answer and the same non-NULL user. */
  predicate Clash(x: Vote, y: Vote)
  {
    x.answer == y.answer && x.user.Some? && x.user == y.user
  }

  /** The `unique_vote` constraint, with NULLs distinct. */
  predicate UniqueVotes(s: Store)
  {
    forall v, w :: v in s.votes && w in s.votes && v != w ==> !Clash(s.votes[v], s.votes[w])
  }

  /** The answers to question `q`. */
  function AnswersOf(s: Store, q: nat): (doomed: set<nat>)
    ensures forall a :: a in doomed <==> a in s.answers && s.answers[a].question == Some(q)
  {
    set a | a in s.answers && s.answers[a].question == Some(q)
  }

  /** `DELETE FROM questions WHERE questionid = q`, with its cascades. */
  function DeleteQuestion(s: Store, q: nat): (r: Store)
    // Users are untouched; the question goes, every other question stays.
    ensures r.users == s.users && q !in r.questions
    ensures forall x :: x in s.questions && x != q ==> x in r.questions && r.questions[x] == s.questions[x]
    ensures r.questions == s.questions - {q}
    // An answer survives exactly when it is not an answer to q.
    ensures forall a :: a in r.answers <==> a in s.answers && s.answers[a].question != Some(q)
    // A vote or comment survives exactly when the answer it hangs on is not an answer to q.
    ensures forall v :: v in r.votes <==>
              v in s.votes && !(s.votes[v].answer in s.answers && s.answers[s.votes[v].answer].question == Some(q))
    ensures forall c :: c in r.comments <==>
              c in s.comments && !(s.comments[c].answer in s.answers && s.answers[s.comments[c].answer].question == Some(q))
    // Surviving rows are unchanged.
    ensures forall a :: a in r.answers ==> r.answers[a] == s.answers[a]
    ensures forall v :: v in r.votes ==> r.votes[v] == s.votes[v]
    ensures forall c :: c in r.comments ==> r.comments[c] == s.comments[c]
  {
    var doomed := AnswersOf(s, q);
    Store(s.users,
          s.questions - {q},
          map a | a in s.answers && a !in doomed :: s.answers[a],
          map v | v in s.votes && s.votes[v].answer !in doomed :: s.votes[v],
          map c | c in s.comments && s.comments[c].answer !in doomed :: s.comments[c])
  }

  /** `DELETE FROM answers WHERE answerid = a`, with its cascades. */
  function DeleteAnswer(s: Store, a: nat): (r: Store)
    ensures r.users == s.users && r.questions == s.questions
    ensures forall x :: x in r.answers <==> x in s.answers && x != a
    ensures forall v :: v in r.votes <==> v in s.votes && s.votes[v].answer != a
    ensures forall c :: c in r.comments <==> c in s.comments && s.comments[c].answer != a
    ensures forall x :: x in r.answers ==> r.answers[x] == s.answers[x]
    ensures forall v :: v in r.votes ==> r.votes[v] == s.votes[v]
    ensures forall c :: c in r.comments ==> r.comments[c] == s.comments[c]
  {
    Store(s.users,
          s.questions,
          s.answers - {a},
          map v | v in s.votes && s.votes[v].answer != a :: s.votes[v],
          map c | c in s.comments && s.comments[c].answer != a :: s.comments[c])
  }

  function Unlink(u: Option<nat>, gone: nat): (r: Option<nat>)
    ensures r == None <==> u == None || u == Some(gone)
    ensures r.Some? ==> r == u
  {
    if u == Some(gone) then None else u
  }

  /** `DELETE FROM users WHERE userid = u`: every reference to u becomes NULL. */
  function DeleteUser(s: Store, u: nat): (r: Store)
    ensures r.users == s.users - {u}
    // No row of any other table is deleted.
    ensures r.questions.Keys == s.questions.Keys && r.answers.Keys == s.answers.Keys
    ensures r.votes.Keys == s.votes.Keys && r.comments.Keys == s.comments.Keys
    // Exactly the references to u are nulled; every other column keeps its value.
    ensures forall q :: q in r.questions ==> r.questions[q] == Question(Unlink(s.questions[q].user, u))
    ensures forall a :: a in r.answers ==>
              r.answers[a] == s.answers[a].(user := Unlink(s.answers[a].user, u))
    ensures forall v :: v in r.votes ==> r.votes[v] == s.votes[v].(user := Unlink(s.votes[v].user, u))
    ensures forall c :: c in r.comments ==>
              r.comments[c] == s.comments[c].(user := Unlink(s.comments[c].user, u))
  {
    Store(s.users - {u},
          map q | q in s.questions :: Question(Unlink(s.questions[q].user, u)),
          map a | a in s.answers :: s.answers[a].(user := Unlink(s.answers[a].user, u)),
          map v | v in s.votes :: s.votes[v].(user := Unlink(s.votes[v].user, u)),
          map c | c in s.comments :: s.comments[c].(user := Unlink(s.comments[c].user, u)))
  }

  /** Why an insert into answer_votes is rejected. */
  datatype Rejection =
    | DuplicateVoteId         // primary key voteid already taken
    | DuplicateVote           // unique_vote: same answer, same non-NULL user
    | NoSuchAnswer            // answerid references no answer
    | NoSuchUser              // userid references no user

  datatype Inserted = Accepted(store: Store) | Rejected(why: Rejection)

  /**
   `INSERT INTO answer_votes`: the unique indexes are checked as the row is
   inserted, the foreign keys after it.
   */
  function InsertVote(s: Store, id: nat, v: Vote): (r: Inserted)
    ensures r.Accepted? <==>
              && id !in s.votes
              && (forall w :: w in s.votes ==> !Clash(v, s.votes[w]))
              && v.answer in s.answers
              && UserRef(s, v.user)
    ensures r.Accepted? ==> r.store == s.(votes := s.votes[id := v])
    ensures id in s.votes ==> r == Rejected(DuplicateVoteId)
    ensures id !in s.votes && (exists w :: w in s.votes && Clash(v, s.votes[w])) ==> r == Rejected(DuplicateVote)
  {
    if id in s.votes then Rejected(DuplicateVoteId)
    else if exists w :: w in s.votes && Clash(v, s.votes[w]) then Rejected(DuplicateVote)
    else if v.answer !in s.answers then Rejected(NoSuchAnswer)
    else if !UserRef(s, v.user) then Rejected(NoSuchUser)
    else Accepted(s.(votes := s.votes[id := v]))
  }

  /** Deleting a question keeps every foreign key resolved and the vote constraint intact. */
  lemma DeleteQuestionKeepsInvariants(s: Store, q: nat)
    requires Consistent(s) && UniqueVotes(s)
    ensures Consistent(DeleteQuestion(s, q)) && UniqueVotes(DeleteQuestion(s, q))
    // Nothing left behind refers to the deleted question.
    ensures forall a :: a in DeleteQuestion(s, q).answers ==> DeleteQuestion(s, q).answers[a].question != Some(q)
  {
    var r := DeleteQuestion(s, q);
    forall a | a in r.answers && r.answers[a].question.Some?
      ensures r.answers[a].question.value in r.questions
    {
      assert s.answers[a].question.value in s.questions;
    }
    forall v | v in r.votes ensures r.votes[v].answer in r.answers {
      assert s.votes[v].answer in s.answers;
    }
    forall c | c in r.comments ensures r.comments[c].answer in r.answers {
      assert s.comments[c].answer in s.answers;
    }
  }

  /**
   The cascade, stated along the reference chain of a consistent store: a
   vote or comment disappears exactly when it hangs on an answer to the
   deleted question.
   */
  lemma CascadeFollowsAnswers(s: Store, q: nat)
    requires Consistent(s)
    ensures forall v :: v in s.votes ==>
              (v !in DeleteQuestion(s, q).votes <==> s.votes[v].answer in AnswersOf(s, q))
    ensures forall c :: c in s.comments ==>
              (c !in DeleteQuestion(s, q).comments <==> s.comments[c].answer in AnswersOf(s, q))
    ensures forall v :: v in DeleteQuestion(s, q).votes ==> s.votes[v].answer in DeleteQuestion(s, q).answers
  {
  }

  /**
   The cascade from a question with a single answer removes exactly what
   deleting that answer does, plus the question itself.
   */
  lemma SingleAnswerCascade(s: Store, q: nat, a: nat)
    requires AnswersOf(s, q) == {a}
    ensures DeleteQuestion(s, q) == DeleteAnswer(s, a).(questions := s.questions - {q})
  {
    var r, t := DeleteQuestion(s, q), DeleteAnswer(s, a).(questions := s.questions - {q});
    assert a in s.answers && s.answers[a].question == Some(q);
    assert r.answers == t.answers;
    assert r.votes == t.votes;
    assert r.comments == t.comments;
  }

  /** A question without answers cascades nowhere. */
  lemma NoAnswersNoCascade(s: Store, q: nat)
    requires AnswersOf(s, q) == {}
    ensures DeleteQuestion(s, q) == s.(questions := s.questions - {q})
  {
    var r := DeleteQuestion(s, q);
    assert r.answers == s.answers;
    assert r.votes == s.votes;
    assert r.comments == s.comments;
  }

  /**
   Deleting one of a question's answers first does not change what deleting
   the question leaves: the cascade removes each answer as its own delete
   would.
   */
  lemma CascadeAbsorbsAnswer(s: Store, q: nat, a: nat)
    requires a in AnswersOf(s, q)
    ensures AnswersOf(DeleteAnswer(s, a), q) == AnswersOf(s, q) - {a}
    ensures DeleteQuestion(DeleteAnswer(s, a), q) == DeleteQuestion(s, q)
  {
    var d := DeleteAnswer(s, a);
    var r, t := DeleteQuestion(d, q), DeleteQuestion(s, q);
    assert r.answers == t.answers;
    AbsorbedVotes(s, q, a);
    AbsorbedComments(s, q, a);
  }

  lemma AbsorbedVotes(s: Store, q: nat, a: nat)
    requires a in AnswersOf(s, q)
    ensures DeleteQuestion(DeleteAnswer(s, a), q).votes == DeleteQuestion(s, q).votes
  {
    var d := DeleteAnswer(s, a);
    forall v ensures v in DeleteQuestion(d, q).votes <==> v in DeleteQuestion(s, q).votes {
      if v in s.votes && s.votes[v].answer != a {
        assert d.votes[v] == s.votes[v];
      }
    }
  }

  lemma AbsorbedComments(s: Store, q: nat, a: nat)
    requires a in AnswersOf(s, q)
    ensures DeleteQuestion(DeleteAnswer(s, a), q).comments == DeleteQuestion(s, q).comments
  {
    var d := DeleteAnswer(s, a);
    forall c ensures c in DeleteQuestion(d, q).comments <==> c in DeleteQuestion(s, q).comments {
      if c in s.comments && s.comments[c].answer != a {
        assert d.comments[c] == s.comments[c];
      }
    }
  }

  /** Deleting an answer keeps every foreign key resolved and the vote constraint intact. */
  lemma DeleteAnswerKeepsInvariants(s: Store, a: nat)
    requires Consistent(s) && UniqueVotes(s)
    ensures Consistent(DeleteAnswer(s, a)) && UniqueVotes(DeleteAnswer(s, a))
  {
  }

  /**
   Deleting a user keeps every foreign key resolved and the vote constraint
   intact, and leaves no reference to the user anywhere.
   */
  lemma DeleteUserKeepsInvariants(s: Store, u: nat)
    requires Consistent(s) && UniqueVotes(s)
    ensures Consistent(DeleteUser(s, u)) && UniqueVotes(DeleteUser(s, u))
    ensures forall q :: q in DeleteUser(s, u).questions ==> DeleteUser(s, u).questions[q].user != Some(u)
    ensures forall a :: a in DeleteUser(s, u).answers ==> DeleteUser(s, u).answers[a].user != Some(u)
    ensures forall v :: v in DeleteUser(s, u).votes ==> DeleteUser(s, u).votes[v].user != Some(u)
    ensures forall c :: c in DeleteUser(s, u).comments ==> DeleteUser(s, u).comments[c].user != Some(u)
  {
    DeleteUserUnique(s, u);
    DeleteUserConsistent(s, u);
  }

  lemma DeleteUserConsistent(s: Store, u: nat)
    requires Consistent(s)
    ensures Consistent(DeleteUser(s, u))
  {
    var r := DeleteUser(s, u);
    forall q | q in r.questions ensures UserRef(r, r.questions[q].user) {
      assert UserRef(s, s.questions[q].user);
    }
    forall a | a in r.answers ensures UserRef(r, r.answers[a].user) {
      assert UserRef(s, s.answers[a].user);
    }
    forall v | v in r.votes ensures UserRef(r, r.votes[v].user) && r.votes[v].answer in r.answers {
      assert UserRef(s, s.votes[v].user) && s.votes[v].answer in s.answers;
    }
    forall c | c in r.comments ensures UserRef(r, r.comments[c].user) && r.comments[c].answer in r.answers {
      assert UserRef(s, s.comments[c].user) && s.comments[c].answer in s.answers;
    }
  }

  lemma DeleteUserUnique(s: Store, u: nat)
    requires UniqueVotes(s)
    ensures UniqueVotes(DeleteUser(s, u))
  {
    var r := DeleteUser(s, u);
    forall v, w | v in r.votes && w in r.votes && v != w
      ensures !Clash(r.votes[v], r.votes[w])
    {
      assert !Clash(s.votes[v], s.votes[w]);
    }
  }

  /** Deleting the same user twice is deleting it once. */
  lemma DeleteUserIdempotent(s: Store, u: nat)
    ensures DeleteUser(DeleteUser(s, u), u) == DeleteUser(s, u)
  {
    var r, t := DeleteUser(s, u), DeleteUser(DeleteUser(s, u), u);
    assert t.questions == r.questions;
    assert t.answers == r.answers;
    assert t.votes == r.votes;
    assert t.comments == r.comments;
  }

  /** An accepted vote keeps the store consistent and the constraint intact. */
  lemma InsertVoteKeepsInvariants(s: Store, id: nat, v: Vote)
    requires Consistent(s) && UniqueVotes(s) && InsertVote(s, id, v).Accepted?
    ensures Consistent(InsertVote(s, id, v).store) && UniqueVotes(InsertVote(s, id, v).store)
  {
    var r := InsertVote(s, id, v).store;
    forall x, y | x in r.votes && y in r.votes && x != y
      ensures !Clash(r.votes[x], r.votes[y])
    {
      if x == id {
        assert !Clash(v, s.votes[y]);
      } else if y == id {
        assert !Clash(v, s.votes[x]);
      } else {
        assert !Clash(s.votes[x], s.votes[y]);
      }
    }
  }

  /** A user cannot vote twice on the same answer: the second insert is rejected. */
  lemma SecondVoteRejected(s: Store, id1: nat, id2: nat, answer: nat, user: nat)
    requires id1 != id2 && id2 !in s.votes
    requires InsertVote(s, id1, Vote(answer, Some(user))).Accepted?
    ensures InsertVote(InsertVote(s, id1, Vote(answer, Some(user))).store, id2, Vote(answer, Some(user))) ==
              Rejected(DuplicateVote)
  {
    var t := InsertVote(s, id1, Vote(answer, Some(user))).store;
    assert id1 in t.votes && Clash(Vote(answer, Some(user)), t.votes[id1]);
  }

  /** Votes with a NULL user never clash: any number of them can hang on one answer. */
  lemma NullVotesCoexist(s: Store, id1: nat, id2: nat, answer: nat)
    requires id1 != id2 && id1 !in s.votes && id2 !in s.votes
    requires answer in s.answers
    ensures InsertVote(s, id1, Vote(answer, None)).Accepted?
    ensures InsertVote(InsertVote(s, id1, Vote(answer, None)).store, id2, Vote(answer, None)).Accepted?
  {
    var t := InsertVote(s, id1, Vote(answer, None)).store;
    assert forall w :: w in t.votes ==> !Clash(Vote(answer, None), t.votes[w]);
  }
}

=== FILE: registry.dfy ===
/**
 The table definition registry: the five `CREATE TABLE IF NOT EXISTS`
 definitions of the forum schema, in declaration order. The repository holds
 two copies that differ only in timestamp types: the exported statements
 used by the startup routine (`TIMESTAMP`) and the statements inlined in the
 migration routine (`TIMESTAMPTZ`). Both are built here from one definition,
 parameterised by that type.
 */
module Registry {
  import opened Catalog

  const Users := "users"
  const Questions := "questions"
  const Answers := "answers"
  const AnswerVotes := "answer_votes"
  const AnswerComments := "answer_comments"

  /** The default clause every creation timestamp carries; only the type before it differs. */
  const NowDefault := " DEFAULT CURRENT_TIMESTAMP"

  function Plain(name: string, definition: string): Column
  {
    Column(name, ColumnDef(definition, None))
  }

  function Ref(name: string, definition: string, target: string, targetColumn: string, action: Action): Column
  {
    Column(name, ColumnDef(definition, Some(Reference(target, targetColumn, action))))
  }

  function UsersSpec(): (s: TableSpec)
    ensures s.name == Users && DistinctNames(s.columns) && s.uniques == []
  {
    TableSpec(Users, [
      Plain("userid", "SERIAL PRIMARY KEY"),
      Plain("username", "VARCHAR(20) NOT NULL"),
      Plain("firstname", "VARCHAR(20) NOT NULL"),
      Plain("lastname", "VARCHAR(20) NOT NULL"),
      Plain("email", "VARCHAR(40) NOT NULL"),
      Plain("password", "VARCHAR(100) NOT NULL"),
      Plain("profile_pic", "TEXT DEFAULT NULL")], [])
  }

  function QuestionsSpec(stamp: string): (s: TableSpec)
    ensures s.name == Questions && DistinctNames(s.columns) && s.uniques == []
  {
    TableSpec(Questions, [
      Plain("questionid", "SERIAL PRIMARY KEY"),
      Ref("userid", "INTEGER", Users, "userid", SetNull),
      Plain("title", "VARCHAR(200) NOT NULL"),
      Plain("description", "VARCHAR(400) NOT NULL"),
      Plain("tag", "VARCHAR(50)"),
      Plain("createdate", stamp + NowDefault),
      Plain("views", "INTEGER DEFAULT 0")], [])
  }

  function AnswersSpec(stamp: string): (s: TableSpec)
    ensures s.name == Answers && DistinctNames(s.columns) && s.uniques == []
  {
    TableSpec(Answers, [
      Plain("answerid", "SERIAL PRIMARY KEY"),
      Ref("userid", "INTEGER", Users, "userid", SetNull),
      Ref("questionid", "INTEGER", Questions, "questionid", Cascade),
      Plain("answer", "VARCHAR(400) NOT NULL"),
      Plain("createdate", stamp + NowDefault),
      Plain("views", "INTEGER DEFAULT 0"),
      Plain("edited", "BOOLEAN DEFAULT FALSE"),
      Plain("updated_at", "TIMESTAMP NULL DEFAULT NULL")], [])
  }

  function AnswerVotesSpec(stamp: string): (s: TableSpec)
    ensures s.name == AnswerVotes && DistinctNames(s.columns)
    // The one table-level constraint: a user votes at most once per answer.
    ensures s.uniques == [["answerid", "userid"]]
  {
    TableSpec(AnswerVotes, [
      Plain("voteid", "SERIAL PRIMARY KEY"),
      Ref("answerid", "INTEGER NOT NULL", Answers, "answerid", Cascade),
      Ref("userid", "INTEGER", Users, "userid", SetNull),
      Plain("vote", "SMALLINT NOT NULL"),
      Plain("created_at", stamp + NowDefault)], [["answerid", "userid"]])
  }

  function AnswerCommentsSpec(stamp: string): (s: TableSpec)
    ensures s.name == AnswerComments && DistinctNames(s.columns) && s.uniques == []
  {
    TableSpec(AnswerComments, [
      Plain("commentid", "SERIAL PRIMARY KEY"),
      Ref("answerid", "INTEGER NOT NULL", Answers, "answerid", Cascade),
      Ref("userid", "INTEGER", Users, "userid", SetNull),
      Plain("comment", "TEXT NOT NULL"),
      Plain("created_at", stamp + NowDefault)], [])
  }

  /** The five definitions in declaration (and creation) order. */
  function Specs(stamp: string): (specs: seq<TableSpec>)
    ensures |specs| == 5
    ensures specs[0].name == Users && specs[1].name == Questions && specs[2].name == Answers
    ensures specs[3].name == AnswerVotes && specs[4].name == AnswerComments
    ensures WellFormed(specs)
  {
    [UsersSpec(), QuestionsSpec(stamp), AnswersSpec(stamp), AnswerVotesSpec(stamp), AnswerCommentsSpec(stamp)]
  }

  /** The exported statements, used by the startup routine. */
  const ExportedSpecs := Specs("TIMESTAMP")

  /** The statements inlined in the migration routine. */
  const MigrationSpecs := Specs("TIMESTAMPTZ")

  function Names(specs: seq<TableSpec>): (names: seq<string>)
    ensures |names| == |specs|
    ensures forall i :: 0 <= i < |specs| ==> names[i] == specs[i].name
  {
    seq(|specs|, i requires 0 <= i < |specs| => specs[i].name)
  }

  /** Some spec in `earlier` creates `r.target` with column `r.targetColumn`. */
  predicate Declares(earlier: seq<TableSpec>, r: Reference)
  {
    exists k, j :: 0 <= k < |earlier| && 0 <= j < |earlier[k].columns| &&
      earlier[k].name == r.target && earlier[k].columns[j].name == r.targetColumn
  }

  /** Each reference of `spec` points at a table `earlier` declares, with the referenced column. */
  predicate RefersBack(earlier: seq<TableSpec>, spec: TableSpec)
  {
    forall j :: 0 <= j < |spec.columns| && spec.columns[j].def.reference.Some? ==>
      Declares(earlier, spec.columns[j].def.reference.value)
  }

  /**
   Every spec refers only to tables declared strictly before it, so creating
   in this order always finds its targets.
   */
  predicate DependencyOrdered(specs: seq<TableSpec>)
  {
    forall i :: 0 <= i < |specs| ==> RefersBack(specs[..i], specs[i])
  }

  predicate DistinctTables(specs: seq<TableSpec>)
  {
    forall i, j :: 0 <= i < j < |specs| ==> specs[i].name != specs[j].name
  }

  /** Each spec names its columns once, and no two specs name the same table. */
  predicate WellFormed(specs: seq<TableSpec>)
  {
    && DistinctTables(specs)
    && forall i :: 0 <= i < |specs| ==> DistinctNames(specs[i].columns)
  }

  lemma RegistryWellFormed(stamp: string)
    ensures Names(Specs(stamp)) == [Users, Questions, Answers, AnswerVotes, AnswerComments]
    ensures WellFormed(Specs(stamp))
  {
    UsersDistinct();
    QuestionsDistinct(stamp);
    AnswersDistinct(stamp);
    AnswerVotesDistinct(stamp);
    AnswerCommentsDistinct(stamp);
  }

  lemma UsersDistinct()
    ensures DistinctNames(UsersSpec().columns)
  {
  }

  lemma QuestionsDistinct(stamp: string)
    ensures DistinctNames(QuestionsSpec(stamp).columns)
  {
  }

  lemma AnswersDistinct(stamp: string)
    ensures DistinctNames(AnswersSpec(stamp).columns)
  {
  }

  lemma AnswerVotesDistinct(stamp: string)
    ensures DistinctNames(AnswerVotesSpec(stamp).columns)
  {
  }

  lemma AnswerCommentsDistinct(stamp: string)
    ensures DistinctNames(AnswerCommentsSpec(stamp).columns)
  {
  }

  lemma DeclaresUsers(earlier: seq<TableSpec>)
    requires |earlier| >= 1 && earlier[0] == UsersSpec()
    // The ON DELETE action plays no part in what a reference targets.
    ensures forall action :: Declares(earlier, Reference(Users, "userid", action))
  {
    assert earlier[0].columns[0].name == "userid";
  }

  lemma DeclaresQuestions(earlier: seq<TableSpec>, stamp: string)
    requires |earlier| >= 2 && earlier[1] == QuestionsSpec(stamp)
    // The ON DELETE action plays no part in what a reference targets.
    ensures forall action :: Declares(earlier, Reference(Questions, "questionid", action))
  {
    assert earlier[1].columns[0].name == "questionid";
  }

  lemma DeclaresAnswers(earlier: seq<TableSpec>, stamp: string)
    requires |earlier| >= 3 && earlier[2] == AnswersSpec(stamp)
    // The ON DELETE action plays no part in what a reference targets.
    ensures forall action :: Declares(earlier, Reference(Answers, "answerid", action))
  {
    assert earlier[2].columns[0].name == "answerid";
  }

  lemma QuestionsRefersBack(earlier: seq<TableSpec>, stamp: string)
    requires Declares(earlier, Reference(Users, "userid", SetNull))
    ensures RefersBack(earlier, QuestionsSpec(stamp))
  {
  }

  lemma AnswersRefersBack(earlier: seq<TableSpec>, stamp: string)
    requires Declares(earlier, Reference(Users, "userid", SetNull))
    requires Declares(earlier, Reference(Questions, "questionid", Cascade))
    ensures RefersBack(earlier, AnswersSpec(stamp))
  {
    var cols := AnswersSpec(stamp).columns;
    forall j | 0 <= j < |cols| && cols[j].def.reference.Some?
      ensures Declares(earlier, cols[j].def.reference.value)
    {
      if j == 1 {
        assert cols[1].def.reference.value == Reference(Users, "userid", SetNull);
      } else {
        assert j == 2;
        assert cols[2].def.reference.value == Reference(Questions, "questionid", Cascade);
      }
    }
  }

  lemma AnswerVotesRefersBack(earlier: seq<TableSpec>, stamp: string)
    requires Declares(earlier, Reference(Users, "userid", SetNull))
    requires Declares(earlier, Reference(Answers, "answerid", Cascade))
    ensures RefersBack(earlier, AnswerVotesSpec(stamp))
  {
    var cols := AnswerVotesSpec(stamp).columns;
    forall j | 0 <= j < |cols| && cols[j].def.reference.Some?
      ensures Declares(earlier, cols[j].def.reference.value)
    {
      if j == 1 {
        assert cols[1].def.reference.value == Reference(Answers, "answerid", Cascade);
      } else {
        assert j == 2;
        assert cols[2].def.reference.value == Reference(Users, "userid", SetNull);
      }
    }
  }

  lemma AnswerCommentsRefersBack(earlier: seq<TableSpec>, stamp: string)
    requires Declares(earlier, Reference(Users, "userid", SetNull))
    requires Declares(earlier, Reference(Answers, "answerid", Cascade))
    ensures RefersBack(earlier, AnswerCommentsSpec(stamp))
  {
    var cols := AnswerCommentsSpec(stamp).columns;
    forall j | 0 <= j < |cols| && cols[j].def.reference.Some?
      ensures Declares(earlier, cols[j].def.reference.value)
    {
      if j == 1 {
        assert cols[1].def.reference.value == Reference(Answers, "answerid", Cascade);
      } else {
        assert j == 2;
        assert cols[2].def.reference.value == Reference(Users, "userid", SetNull);
      }
    }
  }

  /** Five specs are dependency-ordered when each refers back only to those before it. */
  lemma FiveOrdered(s0: TableSpec, s1: TableSpec, s2: TableSpec, s3: TableSpec, s4: TableSpec)
    requires RefersBack([], s0) && RefersBack([s0], s1) && RefersBack([s0, s1], s2)
    requires RefersBack([s0, s1, s2], s3) && RefersBack([s0, s1, s2, s3], s4)
    ensures DependencyOrdered([s0, s1, s2, s3, s4])
  {
    var r := [s0, s1, s2, s3, s4];
    assert r[..0] == [] && r[..1] == [s0] && r[..2] == [s0, s1];
    assert r[..3] == [s0, s1, s2] && r[..4] == [s0, s1, s2, s3];
  }

  /** Registry order respects foreign keys: users, then questions, then answers, then votes and comments. */
  lemma RegistryDependencyOrdered(stamp: string)
    ensures DependencyOrdered(Specs(stamp))
  {
    var s0, s1, s2, s3, s4 := UsersSpec(), QuestionsSpec(stamp), AnswersSpec(stamp), AnswerVotesSpec(stamp), AnswerCommentsSpec(stamp);
    assert RefersBack([], s0);
    DeclaresUsers([s0]);
    QuestionsRefersBack([s0], stamp);
    DeclaresUsers([s0, s1]);
    DeclaresQuestions([s0, s1], stamp);
    AnswersRefersBack([s0, s1], stamp);
    DeclaresUsers([s0, s1, s2]);
    DeclaresAnswers([s0, s1, s2], stamp);
    AnswerVotesRefersBack([s0, s1, s2], stamp);
    DeclaresUsers([s0, s1, s2, s3]);
    DeclaresAnswers([s0, s1, s2, s3], stamp);
    AnswerCommentsRefersBack([s0, s1, s2, s3], stamp);
    FiveOrdered(s0, s1, s2, s3, s4);
  }

  /** The reference a column declares, as the created table holds it. */
  function ReferenceOf(spec: TableSpec, column: string): Option<Reference>
  {
    var cols := ColumnsOf(spec.columns);
    if column in cols then cols[column].reference else None
  }

  lemma ReferenceAt(spec: TableSpec, j: int)
    requires DistinctNames(spec.columns) && 0 <= j < |spec.columns|
    ensures ReferenceOf(spec, spec.columns[j].name) == spec.columns[j].def.reference
  {
  }

  lemma UsersActions()
    ensures forall j :: 0 <= j < |UsersSpec().columns| ==> UsersSpec().columns[j].def.reference.None?
  {
  }

  lemma QuestionsActions(stamp: string)
    ensures ReferenceOf(QuestionsSpec(stamp), "userid") == Some(Reference(Users, "userid", SetNull))
  {
    var spec := QuestionsSpec(stamp);
    assert DistinctNames(spec.columns);
    ReferenceAt(spec, 1);
  }

  lemma AnswersActions(stamp: string)
    ensures ReferenceOf(AnswersSpec(stamp), "userid") == Some(Reference(Users, "userid", SetNull))
    ensures ReferenceOf(AnswersSpec(stamp), "questionid") == Some(Reference(Questions, "questionid", Cascade))
  {
    var spec := AnswersSpec(stamp);
    assert DistinctNames(spec.columns);
    ReferenceAt(spec, 1);
    ReferenceAt(spec, 2);
  }

  lemma AnswerVotesActions(stamp: string)
    ensures ReferenceOf(AnswerVotesSpec(stamp), "userid") == Some(Reference(Users, "userid", SetNull))
    ensures ReferenceOf(AnswerVotesSpec(stamp), "answerid") == Some(Reference(Answers, "answerid", Cascade))
  {
    var spec := AnswerVotesSpec(stamp);
    assert DistinctNames(spec.columns);
    ReferenceAt(spec, 1);
    ReferenceAt(spec, 2);
  }

  lemma AnswerCommentsActions(stamp: string)
    ensures ReferenceOf(AnswerCommentsSpec(stamp), "userid") == Some(Reference(Users, "userid", SetNull))
    ensures ReferenceOf(AnswerCommentsSpec(stamp), "answerid") == Some(Reference(Answers, "answerid", Cascade))
  {
    var spec := AnswerCommentsSpec(stamp);
    assert DistinctNames(spec.columns);
    ReferenceAt(spec, 1);
    ReferenceAt(spec, 2);
  }

  /**
   The declared referential actions the row-level model implements: the four
   `userid` columns are `SET NULL` into users; an answer cascades from its
   question; votes and comments cascade from their answer; a vote is unique
   on (answerid, userid); users references nothing.
   */
  lemma DeclaredActions(stamp: string)
    ensures ReferenceOf(QuestionsSpec(stamp), "userid") == Some(Reference(Users, "userid", SetNull))
    ensures ReferenceOf(AnswersSpec(stamp), "userid") == Some(Reference(Users, "userid", SetNull))
    ensures ReferenceOf(AnswerVotesSpec(stamp), "userid") == Some(Reference(Users, "userid", SetNull))
    ensures ReferenceOf(AnswerCommentsSpec(stamp), "userid") == Some(Reference(Users, "userid", SetNull))
    ensures ReferenceOf(AnswersSpec(stamp), "questionid") == Some(Reference(Questions, "questionid", Cascade))
    ensures ReferenceOf(AnswerVotesSpec(stamp), "answerid") == Some(Reference(Answers, "answerid", Cascade))
    ensures ReferenceOf(AnswerCommentsSpec(stamp), "answerid") == Some(Reference(Answers, "answerid", Cascade))
    ensures AnswerVotesSpec(stamp).uniques == [["answerid", "userid"]]
    ensures forall j :: 0 <= j < |UsersSpec().columns| ==> UsersSpec().columns[j].def.reference.None?
  {
    UsersActions();
    QuestionsActions(stamp);
    AnswersActions(stamp);
    AnswerVotesActions(stamp);
    AnswerCommentsActions(stamp);
  }
}

=== FILE: schema.dfy ===
/**
 The migration routine of the schema module: the five conditional creates
 with the migration's own copies of the definitions, then the two columns
 added for password-reset support. It runs once at module load; an error is
 caught and logged, never rethrown, so the run's outcome is all a caller sees.
 */
module Schema {
  import opened Catalog
  import opened Executor
  import opened Registry
  import opened Migration

  /** Columns added after the initial release, through `addColumnIfNotExists`. */
  const FutureColumns: seq<Step> := [
    EnsureColumn(Users, "password_reset_token", "VARCHAR(255) NULL"),
    EnsureColumn(Users, "token_expiry", "TIMESTAMPTZ NULL")]

  /** Every step of the migration, in the order it awaits them. */
  const MigrationPlan: seq<Step> := Creates(MigrationSpecs) + FutureColumns

  /** The five tables and the two password-reset columns are all in place. */
  predicate SchemaInstalled(c: Catalog)
  {
    && Users in c && Questions in c && Answers in c && AnswerVotes in c && AnswerComments in c
    && HasColumn(c, Users, "password_reset_token")
    && HasColumn(c, Users, "token_expiry")
  }

  /** The self-invoking migration routine. */
  function Migrate(db: Db): (r: Run)
    // Nothing is dropped: every table and column already there survives, with its definition.
    ensures Follows(db, r.db) && Extends(db.catalog, r.db.catalog)
    // A completed run leaves the whole schema in place.
    ensures r.outcome.Done? ==> SchemaInstalled(r.db.catalog)
    // An executor error anywhere in the run is reported, never swallowed.
    ensures r.outcome.Done? ==> MetNoFault(db, r.db)
  {
    var r := RunSteps(db, MigrationPlan);
    if r.outcome.Done? then
      DoneSettlesAll(db, MigrationPlan);
      RunDoneMetNoFault(db, MigrationPlan);
      assert Settled(r.db.catalog, MigrationPlan[0]) && Settled(r.db.catalog, MigrationPlan[1]);
      assert Settled(r.db.catalog, MigrationPlan[2]) && Settled(r.db.catalog, MigrationPlan[3]);
      assert Settled(r.db.catalog, MigrationPlan[4]);
      assert Settled(r.db.catalog, MigrationPlan[5]) && Settled(r.db.catalog, MigrationPlan[6]);
      r
    else r
  }

  /** The two additive steps complete once users exists, touching only users. */
  lemma FutureColumnsComplete(db: Db)
    requires Healthy(db) && Users in db.catalog
    ensures RunSteps(db, FutureColumns).outcome.Done?
    ensures HasColumn(RunSteps(db, FutureColumns).db.catalog, Users, "password_reset_token")
    ensures HasColumn(RunSteps(db, FutureColumns).db.catalog, Users, "token_expiry")
    // A column that was missing is added with the definition the migration passes.
    ensures !HasColumn(db.catalog, Users, "password_reset_token") ==>
              RunSteps(db, FutureColumns).db.catalog[Users].columns["password_reset_token"] ==
              ColumnDef("VARCHAR(255) NULL", None)
    ensures !HasColumn(db.catalog, Users, "token_expiry") ==>
              RunSteps(db, FutureColumns).db.catalog[Users].columns["token_expiry"] ==
              ColumnDef("TIMESTAMPTZ NULL", None)
    ensures RunSteps(db, FutureColumns).db.catalog.Keys == db.catalog.Keys
    ensures forall t :: t in db.catalog && t != Users ==>
              RunSteps(db, FutureColumns).db.catalog[t] == db.catalog[t]
  {
    var first := ExecStep(db, FutureColumns[0]);
    HealthyFollows(db, first.db);
    var second := ExecStep(first.db, FutureColumns[1]);
    assert FutureColumns[1..][1..] == [];
    assert RunSteps(db, FutureColumns) == RunSteps(first.db, FutureColumns[1..]);
    assert RunSteps(first.db, FutureColumns[1..]) == second;
    SettledMonotone(first.db.catalog, second.db.catalog, FutureColumns[0]);
  }

  /** The creates of any well-ordered registry containing users, then the additive columns. */
  lemma CreatesThenColumns(db: Db, specs: seq<TableSpec>, m: nat)
    requires Healthy(db) && WellFormed(specs) && DependencyOrdered(specs)
    requires PartiallyCreated(db.catalog, specs, m) && Users in NameSet(specs)
    ensures RunSteps(db, Creates(specs) + FutureColumns).outcome.Done?
    ensures RunSteps(db, Creates(specs) + FutureColumns).db.catalog.Keys == db.catalog.Keys + NameSet(specs)
    ensures HasColumn(RunSteps(db, Creates(specs) + FutureColumns).db.catalog, Users, "password_reset_token")
    ensures HasColumn(RunSteps(db, Creates(specs) + FutureColumns).db.catalog, Users, "token_expiry")
    ensures forall t :: t in db.catalog && t != Users ==>
              RunSteps(db, Creates(specs) + FutureColumns).db.catalog[t] == db.catalog[t]
    ensures forall i :: m <= i < |specs| && specs[i].name != Users ==>
              RunSteps(db, Creates(specs) + FutureColumns).db.catalog[specs[i].name] == TableOf(specs[i])
  {
    OrderedCreatesComplete(db, specs, m);
    var created := RunSteps(db, Creates(specs));
    RunAppend(db, Creates(specs), FutureColumns);
    HealthyFollows(db, created.db);
    FutureColumnsComplete(created.db);
  }

  lemma RegistryNames(stamp: string)
    ensures NameSet(Specs(stamp)) == {Users, Questions, Answers, AnswerVotes, AnswerComments}
  {
    RegistryWellFormed(stamp);
    var r := Specs(stamp);
    assert r[0].name == Users && r[1].name == Questions && r[2].name == Answers;
    assert r[3].name == AnswerVotes && r[4].name == AnswerComments;
  }

  /** Recovery for either copy of the registry. */
  lemma RegistryRecovers(db: Db, stamp: string, m: nat)
    requires Healthy(db) && PartiallyCreated(db.catalog, Specs(stamp), m)
    ensures var r := RunSteps(db, Creates(Specs(stamp)) + FutureColumns);
      && r.outcome.Done?
      && r.db.catalog.Keys == db.catalog.Keys + {Users, Questions, Answers, AnswerVotes, AnswerComments}
      && HasColumn(r.db.catalog, Users, "password_reset_token")
      && HasColumn(r.db.catalog, Users, "token_expiry")
      && (forall t :: t in db.catalog && t != Users ==> r.db.catalog[t] == db.catalog[t])
      && (m <= 1 ==> r.db.catalog[Questions] == TableOf(QuestionsSpec(stamp)))
      && (m <= 2 ==> r.db.catalog[Answers] == TableOf(AnswersSpec(stamp)))
      && (m <= 3 ==> r.db.catalog[AnswerVotes] == TableOf(AnswerVotesSpec(stamp)))
      && (m <= 4 ==> r.db.catalog[AnswerComments] == TableOf(AnswerCommentsSpec(stamp)))
  {
    var specs := Specs(stamp);
    RegistryWellFormed(stamp);
    RegistryDependencyOrdered(stamp);
    RegistryNames(stamp);
    CreatesThenColumns(db, specs, m);
    var r := RunSteps(db, Creates(specs) + FutureColumns);
    assert specs[1].name == Questions && specs[2].name == Answers;
    assert specs[3].name == AnswerVotes && specs[4].name == AnswerComments;
    assert m <= 1 ==> r.db.catalog[specs[1].name] == TableOf(specs[1]);
    assert m <= 2 ==> r.db.catalog[specs[2].name] == TableOf(specs[2]);
    assert m <= 3 ==> r.db.catalog[specs[3].name] == TableOf(specs[3]);
    assert m <= 4 ==> r.db.catalog[specs[4].name] == TableOf(specs[4]);
  }

  /**
   Partial-state recovery: against a schema where a crash left the first `m`
   registry tables and none of the others, a healthy run completes, keeps
   the tables already there (users only gains the new columns), and creates
   exactly the missing ones as the migration defines them.
   */
  lemma MigrateRecovers(db: Db, m: nat)
    requires Healthy(db) && PartiallyCreated(db.catalog, MigrationSpecs, m)
    ensures Migrate(db).outcome.Done?
    ensures SchemaInstalled(Migrate(db).db.catalog)
    ensures Migrate(db).db.catalog.Keys == db.catalog.Keys + {Users, Questions, Answers, AnswerVotes, AnswerComments}
    ensures forall t :: t in db.catalog && t != Users ==> Migrate(db).db.catalog[t] == db.catalog[t]
    ensures m <= 1 ==> Migrate(db).db.catalog[Questions] == TableOf(QuestionsSpec("TIMESTAMPTZ"))
    ensures m <= 2 ==> Migrate(db).db.catalog[Answers] == TableOf(AnswersSpec("TIMESTAMPTZ"))
    ensures m <= 3 ==> Migrate(db).db.catalog[AnswerVotes] == TableOf(AnswerVotesSpec("TIMESTAMPTZ"))
    ensures m <= 4 ==> Migrate(db).db.catalog[AnswerComments] == TableOf(AnswerCommentsSpec("TIMESTAMPTZ"))
  {
    RegistryRecovers(db, "TIMESTAMPTZ", m);
  }

  /** The partial state the recovery scenario starts from: users exists, nothing else does. */
  lemma OnlyUsersIsPartial(c: Catalog, stamp: string)
    requires c.Keys == {Users} && Covers(c, UsersSpec())
    ensures PartiallyCreated(c, Specs(stamp), 1)
  {
    assert Specs(stamp)[0] == UsersSpec();
  }

  lemma RegistryRecoversFromOnlyUsers(db: Db, stamp: string)
    requires Healthy(db) && db.catalog.Keys == {Users} && Covers(db.catalog, UsersSpec())
    ensures var r := RunSteps(db, Creates(Specs(stamp)) + FutureColumns);
      && r.outcome.Done?
      && r.db.catalog.Keys == {Users, Questions, Answers, AnswerVotes, AnswerComments}
      && HasColumn(r.db.catalog, Users, "password_reset_token")
      && HasColumn(r.db.catalog, Users, "token_expiry")
      && r.db.catalog[Questions] == TableOf(QuestionsSpec(stamp))
      && r.db.catalog[Answers] == TableOf(AnswersSpec(stamp))
      && r.db.catalog[AnswerVotes] == TableOf(AnswerVotesSpec(stamp))
      && r.db.catalog[AnswerComments] == TableOf(AnswerCommentsSpec(stamp))
  {
    OnlyUsersIsPartial(db.catalog, stamp);
    RegistryRecovers(db, stamp, 1);
  }

  /** Starting with only users, a healthy run ends with all five tables and the new users columns. */
  lemma RecoverFromOnlyUsers(db: Db)
    requires Healthy(db) && db.catalog.Keys == {Users} && Covers(db.catalog, UsersSpec())
    ensures Migrate(db).outcome.Done?
    ensures SchemaInstalled(Migrate(db).db.catalog)
    ensures Migrate(db).db.catalog.Keys == {Users, Questions, Answers, AnswerVotes, AnswerComments}
    ensures Migrate(db).db.catalog[Questions] == TableOf(QuestionsSpec("TIMESTAMPTZ"))
    ensures Migrate(db).db.catalog[Answers] == TableOf(AnswersSpec("TIMESTAMPTZ"))
    ensures Migrate(db).db.catalog[AnswerVotes] == TableOf(AnswerVotesSpec("TIMESTAMPTZ"))
    ensures Migrate(db).db.catalog[AnswerComments] == TableOf(AnswerCommentsSpec("TIMESTAMPTZ"))
  {
    RegistryRecoversFromOnlyUsers(db, "TIMESTAMPTZ");
  }

  /**
   Whatever a migration does, complete or stop at a fault part way through
   the creates or the column additions, it leaves a partly created schema.
   */
  lemma MigrateLeavesPartial(db: Db, m: nat) returns (m': nat)
    requires PartiallyCreated(db.catalog, MigrationSpecs, m)
    ensures PartiallyCreated(Migrate(db).db.catalog, MigrationSpecs, m')
  {
    RegistryWellFormed("TIMESTAMPTZ");
    RunAppend(db, Creates(MigrationSpecs), FutureColumns);
    var created := RunSteps(db, Creates(MigrationSpecs));
    m' := CreatesLeavePartial(db, MigrationSpecs, m);
    if created.outcome.Done? {
      PartialExtends(created.db.catalog, Migrate(db).db.catalog, MigrationSpecs);
    }
  }

  /**
   A failed migration is repaired by running it again: from a partly created
   schema, whatever the first run did on whatever executor, a second run on a
   healthy one completes.
   */
  lemma RetryMigrate(db: Db, db2: Db, m: nat)
    requires PartiallyCreated(db.catalog, MigrationSpecs, m)
    requires Healthy(db2) && db2.catalog == Migrate(db).db.catalog
    ensures Migrate(db2).outcome.Done? && SchemaInstalled(Migrate(db2).db.catalog)
  {
    var m' := MigrateLeavesPartial(db, m);
    MigrateRecovers(db2, m');
  }

  /**
   Running the migration twice with a healthy executor gives the catalog and
   verdict of running it once, from any starting state.
   */
  lemma MigrateTwiceIsOnce(db: Db)
    requires Healthy(db)
    ensures Migrate(Migrate(db).db).db.catalog == Migrate(db).db.catalog
    ensures Migrate(Migrate(db).db).outcome == Migrate(db).outcome
  {
    HealthyFollows(db, Migrate(db).db);
    RerunFixedPoint(db, Migrate(db).db, MigrationPlan);
  }

  /**
   After a completed migration, a second run with any executor behaviour
   changes nothing and issues no ALTER.
   */
  lemma MigrateAgainIsInert(db: Db, db2: Db)
    requires Migrate(db).outcome.Done? && db2.catalog == Migrate(db).db.catalog
    ensures Migrate(db2).db.catalog == db2.catalog
    ensures Alters(Migrate(db2).db.log[|db2.log|..]) == 0
    ensures Healthy(db2) ==> Migrate(db2).outcome.Done?
  {
    RerunAfterSuccess(db, db2, MigrationPlan);
  }

  /** None of the five registry tables exists yet. */
  predicate NoneCreated(c: Catalog)
  {
    Users !in c && Questions !in c && Answers !in c && AnswerVotes !in c && AnswerComments !in c
  }

  /**
   Against a schema holding none of the five tables, either registry's
   creates all succeed, touch nothing else, and produce exactly its
   definitions.
   */
  lemma RegistryCreatesFresh(db: Db, stamp: string)
    requires Healthy(db) && NoneCreated(db.catalog)
    ensures var r := RunSteps(db, Creates(Specs(stamp)));
      && r.outcome.Done?
      && r.db.catalog.Keys == db.catalog.Keys + {Users, Questions, Answers, AnswerVotes, AnswerComments}
      && (forall t :: t in db.catalog ==> r.db.catalog[t] == db.catalog[t])
      && r.db.catalog[Users] == TableOf(UsersSpec())
      && r.db.catalog[Questions] == TableOf(QuestionsSpec(stamp))
      && r.db.catalog[Answers] == TableOf(AnswersSpec(stamp))
      && r.db.catalog[AnswerVotes] == TableOf(AnswerVotesSpec(stamp))
      && r.db.catalog[AnswerComments] == TableOf(AnswerCommentsSpec(stamp))
  {
    var specs := Specs(stamp);
    FreshIsPartial(db.catalog, stamp);
    RegistryWellFormed(stamp);
    RegistryDependencyOrdered(stamp);
    RegistryNames(stamp);
    OrderedCreatesComplete(db, specs, 0);
    var r := RunSteps(db, Creates(specs));
    assert r.db.catalog[specs[0].name] == TableOf(specs[0]);
    assert r.db.catalog[specs[1].name] == TableOf(specs[1]);
    assert r.db.catalog[specs[2].name] == TableOf(specs[2]);
    assert r.db.catalog[specs[3].name] == TableOf(specs[3]);
    assert r.db.catalog[specs[4].name] == TableOf(specs[4]);
  }

  lemma FreshIsPartial(c: Catalog, stamp: string)
    requires NoneCreated(c)
    ensures PartiallyCreated(c, Specs(stamp), 0)
  {
    RegistryWellFormed(stamp);
    var specs := Specs(stamp);
    assert specs[0].name == Users && specs[1].name == Questions && specs[2].name == Answers;
    assert specs[3].name == AnswerVotes && specs[4].name == AnswerComments;
  }

  function Reversed<T>(s: seq<T>): (r: seq<T>)
    ensures |r| == |s|
    ensures forall i :: 0 <= i < |s| ==> r[i] == s[|s| - 1 - i]
  {
    seq(|s|, i requires 0 <= i < |s| => s[|s| - 1 - i])
  }

  /**
   Creating the registry back to front on an empty schema fails at the very
   first statement: answer_comments references answers, which does not exist.
   */
  lemma ReversedRegistryFails(db: Db, stamp: string)
    requires Healthy(db) && db.catalog == map[]
    ensures var r := RunSteps(db, Creates(Reversed(Specs(stamp))));
      && r.outcome == Failed(UnresolvedReference(AnswerComments, Answers, "answerid"))
      && r.db.catalog == map[]
      && r.db.log == db.log + [CreateTable(AnswerCommentsSpec(stamp))]
  {
    var rev := Reversed(Specs(stamp));
    var spec := AnswerCommentsSpec(stamp);
    assert rev[0] == spec;
    assert DistinctNames(spec.columns);
    RootMustComeFirst(db, rev, 1);
    assert spec.columns[1..][1..] == spec.columns[2..];
    assert FirstUnresolved(map[], spec, spec.columns) == Some(Reference(Answers, "answerid", Cascade));
  }

  /** A created table holds each column of its spec with the spec's definition. */
  lemma DefinitionAt(spec: TableSpec, j: nat)
    requires DistinctNames(spec.columns) && j < |spec.columns|
    ensures TableOf(spec).columns[spec.columns[j].name] == spec.columns[j].def
  {
  }

  lemma CreatedateColumn(stamp: string)
    ensures var col := QuestionsSpec(stamp).columns[5];
      && col.name == "createdate"
      && TableOf(QuestionsSpec(stamp)).columns[col.name] == ColumnDef(stamp + NowDefault, None)
  {
    RegistryWellFormed(stamp);
    assert Specs(stamp)[1] == QuestionsSpec(stamp);
    DefinitionAt(QuestionsSpec(stamp), 5);
  }

  /** A questions table created from a spec carries that spec's timestamp type in `createdate`. */
  lemma QuestionsCreatedate(t: Table, stamp: string)
    requires t == TableOf(QuestionsSpec(stamp))
    ensures "createdate" in t.columns
    ensures t.columns["createdate"] == ColumnDef(stamp + NowDefault, None)
  {
    CreatedateColumn(stamp);
  }
}

=== FILE: startup.dfy ===
/**
 The server's startup routine: one probe query, then the five exported
 creates in declaration order, any error caught and logged. The server
 listens whatever happened, and warns that the database is not connected
 exactly when the probe did not succeed.
 */
module Startup {
  import opened Catalog
  import opened Executor
  import opened Registry
  import opened Migration
  import opened Schema

  /** What the startup routine leaves behind. */
  datatype Server = Server(
    db: Db,
    dbConnected: bool,       // set once the probe query has returned
    setup: Outcome,          // Done, or the error that was caught and logged
    listening: bool,
    degradedWarning: bool)   // the "database is not connected" note

  /** The startup routine. */
  function Start(db: Db): (s: Server)
    // The server listens whatever the database did.
    ensures s.listening
    ensures s.degradedWarning <==> !s.dbConnected
    // The flag records exactly whether the probe succeeded; a later failing create does not reset it.
    ensures s.dbConnected <==> Live(db)
    ensures Follows(db, s.db) && Extends(db.catalog, s.db.catalog)
    // The probe is always the first statement issued.
    ensures db.log + [Probe] <= s.db.log
    // A failed probe issues nothing else and changes nothing.
    ensures !s.dbConnected ==>
              s.db.log == db.log + [Probe] && s.db.catalog == db.catalog && s.setup.Failed?
  {
    var probe := Query(db, Probe);
    if probe.rows.Err? then
      Server(probe.db, false, Failed(probe.rows.error), true, true)
    else
      var run := RunSteps(probe.db, Creates(ExportedSpecs));
      Server(run.db, true, run.outcome, true, false)
  }

  /**
   The statements startup issues: the probe, then creates of users,
   questions, answers, answer_votes and answer_comments in that order,
   stopping after the first that fails; no create at all when the probe fails.
   */
  lemma StartTrace(db: Db) returns (k: nat)
    ensures Names(ExportedSpecs) == [Users, Questions, Answers, AnswerVotes, AnswerComments]
    ensures k <= |ExportedSpecs|
    ensures Start(db).db.log == db.log + [Probe] + CreateStmts(ExportedSpecs)[..k]
    ensures !Start(db).dbConnected ==> k == 0
    ensures Start(db).setup.Done? ==> k == |ExportedSpecs|
    ensures Start(db).dbConnected && Start(db).setup.Failed? ==> k >= 1
  {
    RegistryWellFormed("TIMESTAMP");
    var probe := Query(db, Probe);
    if probe.rows.Err? {
      k := 0;
    } else {
      k := CreatesIssueInOrder(probe.db, ExportedSpecs);
    }
  }

  /** With the database unreachable, no create is issued, and the server still listens, with the warning. */
  lemma DegradedStartup(db: Db)
    requires !db.reachable
    ensures Start(db) == Server(db.(log := db.log + [Probe]), false, Failed(ConnectionRefused), true, true)
    ensures forall i :: |db.log| <= i < |Start(db).db.log| ==> !Start(db).db.log[i].CreateTable?
  {
  }

  /**
   Fail-fast without rollback: when a create fails after a successful probe,
   the catalog is the one left by the creates before it, which all succeeded,
   and no later create was issued.
   */
  lemma StartFailFast(db: Db) returns (k: nat)
    requires Start(db).dbConnected && Start(db).setup.Failed?
    ensures k < |ExportedSpecs|
    ensures RunSteps(Query(db, Probe).db, Creates(ExportedSpecs)[..k]).outcome.Done?
    ensures Start(db).db.catalog == RunSteps(Query(db, Probe).db, Creates(ExportedSpecs)[..k]).db.catalog
    ensures Start(db).db.log == db.log + [Probe] + CreateStmts(ExportedSpecs)[..k + 1]
  {
    var probe := Query(db, Probe);
    k := FailFast(probe.db, Creates(ExportedSpecs));
    var k' := StartTrace(db);
    var before := RunSteps(probe.db, Creates(ExportedSpecs)[..k]);
    assert RunSteps(probe.db, Creates(ExportedSpecs)) == ExecStep(before.db, Create(ExportedSpecs[k]));
    CreatesPrefixLog(probe.db, ExportedSpecs, k);
    CreateStepLog(before.db, ExportedSpecs[k]);
    assert k' == k + 1 by {
      assert |Start(db).db.log| == |db.log| + 1 + k + 1;
    }
  }

  /** The log of a run of creates that all succeeded: one CREATE per spec. */
  lemma CreatesPrefixLog(db: Db, specs: seq<TableSpec>, k: nat)
    requires k <= |specs|
    requires RunSteps(db, Creates(specs)[..k]).outcome.Done?
    ensures RunSteps(db, Creates(specs)[..k]).db.log == db.log + CreateStmts(specs)[..k]
  {
    assert Creates(specs)[..k] == Creates(specs[..k]);
    var j := CreatesIssueInOrder(db, specs[..k]);
    assert CreateStmts(specs[..k]) == CreateStmts(specs)[..k];
  }

  /**
   The probe succeeds but the executor fails the second create: the server
   stays connected and listens without the warning, users exists, and
   nothing after questions is attempted.
   */
  lemma FaultOnSecondCreate(db: Db)
    requires db.reachable && db.faults == {|db.log| + 2} && NoneCreated(db.catalog)
    ensures Start(db).dbConnected && !Start(db).degradedWarning && Start(db).listening
    ensures Start(db).setup == Failed(QueryFailed(|db.log| + 2))
    ensures Start(db).db.catalog == db.catalog[Users := TableOf(UsersSpec())]
    ensures Start(db).db.log == db.log + [Probe, CreateTable(ExportedSpecs[0]), CreateTable(ExportedSpecs[1])]
    ensures ExportedSpecs[0] == UsersSpec() && ExportedSpecs[1] == QuestionsSpec("TIMESTAMP")
  {
    var probe := Query(db, Probe);
    RegistryWellFormed("TIMESTAMP");
    var users := ExportedSpecs[0];
    assert users == UsersSpec() && ExportedSpecs[1] == QuestionsSpec("TIMESTAMP");
    assert forall j :: 0 <= j < |users.columns| ==> users.columns[j].def.reference.None?;
    SecondCreateFaults(probe.db, ExportedSpecs);
    ThreeAppended(db.log, Probe, CreateTable(ExportedSpecs[0]), CreateTable(ExportedSpecs[1]));
  }

  lemma ThreeAppended<T>(s: seq<T>, x: T, y: T, z: T)
    ensures s + [x] + [y, z] == s + [x, y, z]
  {
  }

  /** A run of creates whose first create succeeds and whose second is failed by the executor. */
  lemma SecondCreateFaults(db: Db, specs: seq<TableSpec>)
    requires |specs| >= 2 && db.reachable && db.faults == {|db.log| + 1}
    requires specs[0].name !in db.catalog && DistinctNames(specs[0].columns) && AllResolve(db.catalog, specs[0])
    ensures RunSteps(db, Creates(specs)) ==
              Run(db.(catalog := db.catalog[specs[0].name := TableOf(specs[0])],
                      log := db.log + [CreateTable(specs[0]), CreateTable(specs[1])]),
                  Failed(QueryFailed(|db.log| + 1)))
  {
    var first := ExecStep(db, Create(specs[0]));
    CreatesUnfold(db, specs);
    assert first.outcome.Done?;
    assert Creates(specs[1..])[0] == Create(specs[1]);
    CreatesUnfold(first.db, specs[1..]);
  }

  /** With a live database, startup's outcome is that of the creates after the probe. */
  lemma StartRunsCreates(db: Db)
    requires Live(db)
    ensures Query(db, Probe).db.catalog == db.catalog
    ensures Healthy(db) ==> Healthy(Query(db, Probe).db)
    ensures Start(db).dbConnected && !Start(db).degradedWarning
    ensures Start(db).db == RunSteps(Query(db, Probe).db, Creates(ExportedSpecs)).db
    ensures Start(db).setup == RunSteps(Query(db, Probe).db, Creates(ExportedSpecs)).outcome
  {
  }

  /** On a database holding none of the tables, a healthy startup creates all five from the exported definitions. */
  lemma StartFromEmpty(db: Db)
    requires Healthy(db) && NoneCreated(db.catalog)
    ensures Start(db).dbConnected && Start(db).setup.Done? && !Start(db).degradedWarning
    ensures Start(db).db.catalog.Keys == db.catalog.Keys + {Users, Questions, Answers, AnswerVotes, AnswerComments}
    ensures forall t :: t in db.catalog ==> Start(db).db.catalog[t] == db.catalog[t]
    ensures Start(db).db.catalog[Users] == TableOf(UsersSpec())
    ensures Start(db).db.catalog[Questions] == TableOf(QuestionsSpec("TIMESTAMP"))
    ensures Start(db).db.catalog[Answers] == TableOf(AnswersSpec("TIMESTAMP"))
    ensures Start(db).db.catalog[AnswerVotes] == TableOf(AnswerVotesSpec("TIMESTAMP"))
    ensures Start(db).db.catalog[AnswerComments] == TableOf(AnswerCommentsSpec("TIMESTAMP"))
  {
    StartRunsCreates(db);
    RegistryCreatesFresh(Query(db, Probe).db, "TIMESTAMP");
  }

  /**
   Same table name, same column names in the same order, same references
   and same unique constraints; only the column types and defaults may differ.
   */
  predicate SameShape(a: TableSpec, b: TableSpec)
  {
    && a.name == b.name
    && a.uniques == b.uniques
    && |a.columns| == |b.columns|
    && forall j :: 0 <= j < |a.columns| ==>
         a.columns[j].name == b.columns[j].name && a.columns[j].def.reference == b.columns[j].def.reference
  }

  /** Coverage depends only on the shape of a spec. */
  lemma CoversSameShape(c: Catalog, a: TableSpec, b: TableSpec)
    requires SameShape(a, b) && Covers(c, a)
    ensures Covers(c, b)
  {
  }

  lemma QuestionsShape(s1: string, s2: string)
    ensures SameShape(QuestionsSpec(s1), QuestionsSpec(s2))
  {
    var a, b := QuestionsSpec(s1).columns, QuestionsSpec(s2).columns;
    forall j | 0 <= j < |a| ensures a[j].name == b[j].name && a[j].def.reference == b[j].def.reference {
    }
  }

  lemma AnswersShape(s1: string, s2: string)
    ensures SameShape(AnswersSpec(s1), AnswersSpec(s2))
  {
    var a, b := AnswersSpec(s1).columns, AnswersSpec(s2).columns;
    forall j | 0 <= j < |a| ensures a[j].name == b[j].name && a[j].def.reference == b[j].def.reference {
    }
  }

  lemma AnswerVotesShape(s1: string, s2: string)
    ensures SameShape(AnswerVotesSpec(s1), AnswerVotesSpec(s2))
  {
    var a, b := AnswerVotesSpec(s1).columns, AnswerVotesSpec(s2).columns;
    forall j | 0 <= j < |a| ensures a[j].name == b[j].name && a[j].def.reference == b[j].def.reference {
    }
  }

  lemma AnswerCommentsShape(s1: string, s2: string)
    ensures SameShape(AnswerCommentsSpec(s1), AnswerCommentsSpec(s2))
  {
    var a, b := AnswerCommentsSpec(s1).columns, AnswerCommentsSpec(s2).columns;
    forall j | 0 <= j < |a| ensures a[j].name == b[j].name && a[j].def.reference == b[j].def.reference {
    }
  }

  /**
   The two registries differ only in column definitions, so the tables one
   of them created count as present for the other.
   */
  lemma RegistryCoversOther(c: Catalog, s1: string, s2: string)
    requires Covers(c, UsersSpec()) && Covers(c, QuestionsSpec(s1)) && Covers(c, AnswersSpec(s1))
    requires Covers(c, AnswerVotesSpec(s1)) && Covers(c, AnswerCommentsSpec(s1))
    ensures PartiallyCreated(c, Specs(s2), 5)
  {
    var specs := Specs(s1);
    assert specs == [UsersSpec(), QuestionsSpec(s1), AnswersSpec(s1), AnswerVotesSpec(s1), AnswerCommentsSpec(s1)];
    assert PartiallyCreated(c, specs, 5);
    PartialOtherRegistry(c, s1, s2, 5);
  }

  /** The two registries agree table by table on everything but column types and defaults. */
  lemma RegistriesSameShape(s1: string, s2: string)
    ensures forall i :: 0 <= i < 5 ==> SameShape(Specs(s1)[i], Specs(s2)[i])
  {
    QuestionsShape(s1, s2);
    AnswersShape(s1, s2);
    AnswerVotesShape(s1, s2);
    AnswerCommentsShape(s1, s2);
  }

  /** A schema partly created by one registry is partly created, as far, for the other. */
  lemma PartialOtherRegistry(c: Catalog, s1: string, s2: string, m: nat)
    requires PartiallyCreated(c, Specs(s1), m)
    ensures PartiallyCreated(c, Specs(s2), m)
  {
    RegistriesSameShape(s1, s2);
    forall i | 0 <= i < m ensures Covers(c, Specs(s2)[i]) {
      CoversSameShape(c, Specs(s1)[i], Specs(s2)[i]);
    }
  }

  /** Whatever startup does, complete or stop part way, it leaves a partly created schema. */
  lemma StartLeavesPartial(db: Db, m: nat) returns (m': nat)
    requires PartiallyCreated(db.catalog, ExportedSpecs, m)
    ensures PartiallyCreated(Start(db).db.catalog, ExportedSpecs, m')
  {
    m' := m;
    if Live(db) {
      RegistryWellFormed("TIMESTAMP");
      StartRunsCreates(db);
      m' := CreatesLeavePartial(Query(db, Probe).db, ExportedSpecs, m);
    }
  }

  /** From a partly created schema, a startup on a healthy executor completes its creates. */
  lemma StartRecovers(db: Db, m: nat)
    requires Healthy(db) && PartiallyCreated(db.catalog, ExportedSpecs, m)
    ensures Start(db).dbConnected && Start(db).setup.Done?
  {
    RegistryWellFormed("TIMESTAMP");
    RegistryDependencyOrdered("TIMESTAMP");
    StartRunsCreates(db);
    OrderedCreatesComplete(Query(db, Probe).db, ExportedSpecs, m);
  }

  /**
   A failed startup is repaired by either bootstrap path: from a partly
   created schema, whatever startup did on whatever executor, a migration on a
   healthy executor completes, and so does a second startup.
   */
  lemma RetryAfterStart(db: Db, db2: Db, m: nat)
    requires PartiallyCreated(db.catalog, ExportedSpecs, m)
    requires Healthy(db2) && db2.catalog == Start(db).db.catalog
    ensures Migrate(db2).outcome.Done? && SchemaInstalled(Migrate(db2).db.catalog)
    ensures Start(db2).dbConnected && Start(db2).setup.Done?
  {
    var m' := StartLeavesPartial(db, m);
    PartialOtherRegistry(db2.catalog, "TIMESTAMP", "TIMESTAMPTZ", m');
    MigrateRecovers(db2, m');
    StartRecovers(db2, m');
  }

  /** Tables created from a registry cover its specs. */
  lemma CreatedCovers(c: Catalog, stamp: string)
    requires Users in c && c[Users] == TableOf(UsersSpec())
    requires Questions in c && c[Questions] == TableOf(QuestionsSpec(stamp))
    requires Answers in c && c[Answers] == TableOf(AnswersSpec(stamp))
    requires AnswerVotes in c && c[AnswerVotes] == TableOf(AnswerVotesSpec(stamp))
    requires AnswerComments in c && c[AnswerComments] == TableOf(AnswerCommentsSpec(stamp))
    ensures Covers(c, UsersSpec()) && Covers(c, QuestionsSpec(stamp)) && Covers(c, AnswersSpec(stamp))
    ensures Covers(c, AnswerVotesSpec(stamp)) && Covers(c, AnswerCommentsSpec(stamp))
  {
    TableOfCovers(UsersSpec());
    TableOfCovers(QuestionsSpec(stamp));
    TableOfCovers(AnswersSpec(stamp));
    TableOfCovers(AnswerVotesSpec(stamp));
    TableOfCovers(AnswerCommentsSpec(stamp));
  }

  /** Once the five tables exist, every create of a registry is settled. */
  lemma RegistrySettled(c: Catalog, stamp: string)
    requires Users in c && Questions in c && Answers in c && AnswerVotes in c && AnswerComments in c
    ensures forall i :: 0 <= i < |Creates(Specs(stamp))| ==> Settled(c, Creates(Specs(stamp))[i])
  {
    RegistryWellFormed(stamp);
    var specs := Specs(stamp);
    assert specs[0].name == Users && specs[1].name == Questions && specs[2].name == Answers;
    assert specs[3].name == AnswerVotes && specs[4].name == AnswerComments;
  }

  /**
   Startup first, migration second, on an empty schema: the exported
   definitions create the tables; the migration then only adds the two users
   columns, so the tables keep their `TIMESTAMP` definitions.
   */
  lemma StartThenMigrate(db: Db)
    requires Healthy(db) && NoneCreated(db.catalog)
    ensures var m := Migrate(Start(db).db);
      && m.outcome.Done? && SchemaInstalled(m.db.catalog)
      && m.db.catalog[Questions] == TableOf(QuestionsSpec("TIMESTAMP"))
      && m.db.catalog[Answers] == TableOf(AnswersSpec("TIMESTAMP"))
      && m.db.catalog[AnswerVotes] == TableOf(AnswerVotesSpec("TIMESTAMP"))
      && m.db.catalog[AnswerComments] == TableOf(AnswerCommentsSpec("TIMESTAMP"))
  {
    var s := Start(db).db;
    StartFromEmpty(db);
    HealthyFollows(db, s);
    CreatedCovers(s.catalog, "TIMESTAMP");
    MigrateAfterExported(s);
  }

  /**
   Against a schema holding the five tables with at least the columns the
   exported definitions declare, the migration completes and leaves every
   table but users exactly as it was.
   */
  lemma MigrateAfterExported(db: Db)
    requires Healthy(db)
    requires Covers(db.catalog, UsersSpec()) && Covers(db.catalog, QuestionsSpec("TIMESTAMP"))
    requires Covers(db.catalog, AnswersSpec("TIMESTAMP")) && Covers(db.catalog, AnswerVotesSpec("TIMESTAMP"))
    requires Covers(db.catalog, AnswerCommentsSpec("TIMESTAMP"))
    ensures Migrate(db).outcome.Done? && SchemaInstalled(Migrate(db).db.catalog)
    ensures forall t :: t in db.catalog && t != Users ==> Migrate(db).db.catalog[t] == db.catalog[t]
    ensures Migrate(db).db.catalog[Questions] == db.catalog[Questions]
    ensures Migrate(db).db.catalog[Answers] == db.catalog[Answers]
    ensures Migrate(db).db.catalog[AnswerVotes] == db.catalog[AnswerVotes]
    ensures Migrate(db).db.catalog[AnswerComments] == db.catalog[AnswerComments]
  {
    RegistryCoversOther(db.catalog, "TIMESTAMP", "TIMESTAMPTZ");
    MigrateRecovers(db, 5);
    assert |Users| != |Questions| && |Users| != |Answers|;
    assert |Users| != |AnswerVotes| && |Users| != |AnswerComments|;
  }

  /**
   Migration first, startup second, on an empty schema: the migration's
   definitions create the tables, and startup's creates all find their table
   already there and change nothing.
   */
  lemma MigrateThenStart(db: Db)
    requires Healthy(db) && NoneCreated(db.catalog)
    ensures var m := Migrate(db); var s := Start(m.db);
      && s.dbConnected && s.setup.Done? && !s.degradedWarning
      && s.db.catalog == m.db.catalog && SchemaInstalled(s.db.catalog)
      && s.db.catalog[Questions] == TableOf(QuestionsSpec("TIMESTAMPTZ"))
      && s.db.catalog[Answers] == TableOf(AnswersSpec("TIMESTAMPTZ"))
      && s.db.catalog[AnswerVotes] == TableOf(AnswerVotesSpec("TIMESTAMPTZ"))
      && s.db.catalog[AnswerComments] == TableOf(AnswerCommentsSpec("TIMESTAMPTZ"))
  {
    FreshIsPartial(db.catalog, "TIMESTAMPTZ");
    MigrateRecovers(db, 0);
    HealthyFollows(db, Migrate(db).db);
    StartOnInstalled(Migrate(db).db);
  }

  /** Once the five tables exist, a healthy startup succeeds and changes nothing. */
  lemma StartOnInstalled(db: Db)
    requires Healthy(db)
    requires Users in db.catalog && Questions in db.catalog && Answers in db.catalog
    requires AnswerVotes in db.catalog && AnswerComments in db.catalog
    ensures Start(db).dbConnected && Start(db).setup.Done? && !Start(db).degradedWarning
    ensures Start(db).db.catalog == db.catalog
  {
    var probe := Query(db, Probe);
    RegistrySettled(probe.db.catalog, "TIMESTAMP");
    SettledRunIsInert(probe.db, Creates(ExportedSpecs));
  }

  /** The definition `questions.createdate` carries in catalog `c`. */
  predicate CreatedateIs(c: Catalog, definition: string)
  {
    Questions in c && "createdate" in c[Questions].columns &&
    c[Questions].columns["createdate"].definition == definition
  }

  lemma CreatedateOf(c: Catalog, stamp: string)
    requires Questions in c && c[Questions] == TableOf(QuestionsSpec(stamp))
    ensures CreatedateIs(c, stamp + NowDefault)
  {
    QuestionsCreatedate(c[Questions], stamp);
  }

  /**
   Whichever routine runs first decides the timestamp type of
   `questions.createdate`; the other's definition is silently ignored.
   */
  lemma FirstCreatorWins(db: Db)
    requires Healthy(db) && NoneCreated(db.catalog)
    ensures CreatedateIs(Migrate(Start(db).db).db.catalog, "TIMESTAMP" + NowDefault)
    ensures CreatedateIs(Start(Migrate(db).db).db.catalog, "TIMESTAMPTZ" + NowDefault)
  {
    StartThenMigrate(db);
    MigrateThenStart(db);
    CreatedateOf(Migrate(Start(db).db).db.catalog, "TIMESTAMP");
    CreatedateOf(Start(Migrate(db).db).db.catalog, "TIMESTAMPTZ");
  }
}
